=== FILE: README.md ===
# Token lifecycle of the pa_poc API and front end, in Dafny

This project models the authentication core of a Symfony API and its Vue front end:

- the refresh-token table and its service: issue, validate, revoke, revoke all for a user, sweep expired rows;
- the access-token blacklist, a TTL cache keyed by `"jwt_" + sha256(token)`;
- the authenticator and the "token decoded" listener, which both consult that blacklist;
- the registration validator and the user controller endpoints `register`, `login`, `me`, `logout` and `refreshToken`;
- the front end's auth store (getters and actions) and the router plugin's navigation guard and refresh tick;
- the test suite's `ApiResponse` wrapper: dot-path `get`, `has`, header lookup and the status-class predicates.

The style is functional throughout:

- Stores are immutable maps. The refresh-token table maps a token value to its owner and expiry. The blacklist maps a cache key to its expiry.
- Time is an explicit integer clock: epoch seconds on the server, milliseconds in the browser.
- Every endpoint is a pure transition `(state, request) -> (state', status, body)`.
- Collaborators the code only calls are parameters, gathered in `UserController.Collaborators`. These are the password hasher, `FILTER_VALIDATE_EMAIL`, the entity validator, JWT minting, sha256 and base64/JSON payload decoding.
- `random_bytes(32)` is an input of 32 bytes whose hex form is not already a stored token. This is a fresh-value oracle; the code itself does not retry on a collision.
- Request bodies are decoded JSON (`Php.Value`), and PHP's own rules are written out:
  - `empty`, `isset` and `??`;
  - `explode` and `str_replace`;
  - the coercion of a JSON value into a `string` or `int` parameter. A value that cannot be coerced is a `TypeError`. The controller does not catch it, so the response is a 500 (`UserController.Uncaught`).
- On the front end every API call is replaced by its outcome (`AuthStore.ApiResult`), supplied as an argument.
- The store calls two API-service functions that do not exist (see "## Findings"). `AuthStore` and `AuthPlugin` model the store with both calls working, and the rest of the model uses them. `AuthStoreAsWritten` and `AuthPluginAsWritten` model the code as written, where those calls throw, and compare the two.

Modules: `Wrappers`, `Php`, `Hex`, `Http`, `Users`, `RefreshTokenRepository`, `RefreshTokenService`, `TokenBlacklist`, `JwtTokenAuthenticator`, `JwtTokenListener`, `UserValidator`, `UserController`, `TokenLifecycle` (properties spanning several requests), `AuthStore`, `AuthPlugin`, `AuthStoreAsWritten`, `AuthPluginAsWritten`, `ApiResponse`.

Where the code and its documentation disagree, the model follows the code:

- The sweep deletes rows whose expiry is strictly before `now`. A row expiring exactly at `now` is kept by the sweep, yet no longer validates, because validation needs `expiresAt > now`.
- Several tests expect a `token` key in the login response, or send `username` instead of `email`. The model follows the controller, which answers `accessToken` and reads `email`.

## Model

| member | source | states |
|---|---|---|
| RefreshTokenRepository.Save | api/www/src/Repository/RefreshTokenRepository.php:20-27 | the entity is stored under its token value and no other row changes |
| RefreshTokenRepository.Remove | api/www/src/Repository/RefreshTokenRepository.php:29-36 | the entity's row is gone and every other row is kept unchanged |
| RefreshTokenRepository.FindOneByToken | api/www/src/Service/RefreshTokenService.php:58 | a row is found iff the value is stored, expired or not |
| RefreshTokenRepository.FindValidToken | api/www/src/Repository/RefreshTokenRepository.php:38-47 | a row is found iff the value is stored and its expiry is strictly after `now` |
| RefreshTokenRepository.FindByUser | api/www/src/Service/RefreshTokenService.php:68 | exactly the values of the rows owned by the user |
| RefreshTokenRepository.FindValidTokensByUser | api/www/src/Repository/RefreshTokenRepository.php:60-69 | exactly the user's rows whose expiry is after `now` |
| RefreshTokenRepository.FindValidTokensByUserIff | api/www/src/Repository/RefreshTokenRepository.php:38-69 | a row is among the user's valid tokens iff `findValidToken` on its value returns it and it is the user's, so it is also among the user's rows |
| RefreshTokenRepository.RemoveExpiredTokens | api/www/src/Repository/RefreshTokenRepository.php:49-58 | keeps a row iff `now <= expiresAt`, leaves kept rows unchanged, and reports the number of rows that had expired strictly before `now` |
| RefreshTokenRepository.ExpiryBoundary | api/www/src/Repository/RefreshTokenRepository.php:42-53 | a row expiring exactly at `now` is neither valid nor swept |
| RefreshTokenRepository.SweepIdempotent | api/www/src/Repository/RefreshTokenRepository.php:49-58 | a second sweep at the same instant removes nothing, and everything left expires at or after `now` |
| RefreshTokenRepository.SweepKeepsValidTokens | api/www/src/Repository/RefreshTokenRepository.php:38-58 | the sweep never deletes a token that would validate |
| RefreshTokenRepository.InvalidStaysInvalid | api/www/src/Repository/RefreshTokenRepository.php:38-47 | a token that no longer validates never validates again as time advances |
| Hex.BinToHex | api/www/src/Service/RefreshTokenService.php:30 | `bin2hex` gives two lower-case hex digits per byte |
| Hex.HexRoundTrip | api/www/src/Service/RefreshTokenService.php:30 | decoding the hex form gives back the bytes |
| Hex.BinToHexInjective | api/www/src/Service/RefreshTokenService.php:30 | distinct byte strings give distinct token values |
| RefreshTokenService.CreateRefreshToken | api/www/src/Service/RefreshTokenService.php:23-42 | exactly one new row: its token is the hex encoding of the 32 random bytes, owned by the user, 64 hex characters, not previously stored, expiring at `now + 7776000`; all other rows unchanged |
| RefreshTokenService.DistinctDrawsDistinctTokens | api/www/src/Service/RefreshTokenService.php:29-31 | two different 32-byte draws never issue the same token string, whatever the stores, since `bin2hex` is injective |
| RefreshTokenService.ValidateRefreshToken | api/www/src/Service/RefreshTokenService.php:44-54 | succeeds with the row iff it is stored and unexpired; otherwise fails with "Invalid or expired refresh token" |
| RefreshTokenService.RevokeRefreshToken | api/www/src/Service/RefreshTokenService.php:56-64 | the value is gone afterwards, other rows are unchanged, and an unknown value is a no-op |
| RefreshTokenService.RevokeAllUserRefreshTokens | api/www/src/Service/RefreshTokenService.php:66-75 | the loop leaves exactly the rows of other users, unchanged |
| RefreshTokenService.CleanupExpiredTokens | api/www/src/Service/RefreshTokenService.php:77-80 | the count is the number of rows expired strictly before `now`, and exactly the rows with `expiresAt >= now` remain |
| RefreshTokenService.CreatedTokenValidFor90Days | api/www/src/Service/RefreshTokenService.php:15-54 | a new token validates at `later` iff `later < now + 7776000` |
| RefreshTokenService.CreateKeepsOtherTokens | api/www/src/Service/RefreshTokenService.php:23-42 | issuing leaves the validity of every other token unchanged |
| RefreshTokenService.RevokeIdempotent | api/www/src/Service/RefreshTokenService.php:56-64 | revoking twice is revoking once |
| RefreshTokenService.RevokedNeverValidates | api/www/src/Service/RefreshTokenService.php:44-64 | a revoked token fails validation at any time |
| RefreshTokenService.RevokeAllValidity | api/www/src/Service/RefreshTokenService.php:66-75 | after revoke-all none of the user's tokens validates, and other users' tokens validate exactly as before |
| TokenBlacklist.IsBlacklisted | api/www/src/Service/TokenBlacklistService.php:34-38 | true iff the cache holds a live entry under `"jwt_"` followed by the token's digest |
| TokenBlacklist.Blacklist | api/www/src/Service/TokenBlacklistService.php:19-32 | with `ttl <= 0` or a live entry the cache is unchanged; otherwise the key is stored to lapse at `expiresAt`; other keys are untouched |
| TokenBlacklist.BlacklistedUntilExpiry | api/www/src/Service/TokenBlacklistService.php:19-38 | a token with a future expiry is blacklisted at once, and, when it was not already, exactly until that expiry |
| TokenBlacklist.ExpiredTokenNotStored | api/www/src/Service/TokenBlacklistService.php:22-26 | an already-expired token leaves the cache and every later answer unchanged |
| TokenBlacklist.ReblacklistKeepsExpiry | api/www/src/Service/TokenBlacklistService.php:28-31 | get-or-compute never overwrites a live entry, so the first expiry stays |
| TokenBlacklist.BlacklistIsolation | api/www/src/Service/TokenBlacklistService.php:19-38 | blacklisting one token does not change the answer for a token with a different key |
| TokenBlacklist.DistinctTokensDistinctKeys | api/www/src/Service/TokenBlacklistService.php:40-44 | with a collision-free digest, distinct tokens get distinct `jwt_` keys |
| JwtTokenAuthenticator.DoAuthenticate | api/www/src/Security/JwtTokenAuthenticator.php:30-44 | no token fails first, a blacklisted token fails next, and only then does the library's verdict decide, unchanged; the two local failures carry the messages "No JWT token found" and "JWT token is blacklisted" |
| JwtTokenAuthenticator.BlacklistGateDominates | api/www/src/Security/JwtTokenAuthenticator.php:38-43 | for a blacklisted token the outcome is a failure whatever the library would say |
| JwtTokenAuthenticator.AuthenticatedIff | api/www/src/Security/JwtTokenAuthenticator.php:30-44 | success iff a token was extracted, it is not blacklisted, and the library accepts it |
| JwtTokenListener.SubscribedEvents | api/www/src/EventListener/JWTTokenListener.php:22-27 | the listener subscribes to the decoded event only, with handler `onJWTDecoded` |
| JwtTokenListener.OnJwtDecoded | api/www/src/EventListener/JWTTokenListener.php:29-42 | no request leaves the event unchanged; otherwise the event stays valid iff it was valid and the checked token is not blacklisted |
| JwtTokenListener.StandardHeaderChecksToken | api/www/src/EventListener/JWTTokenListener.php:36 | for the header `"Bearer " + t` the listener checks exactly `t` |
| Http.StripBearerUnchanged | api/www/src/Controller/UserController.php:175 | a header without `"Bearer "` is passed through unchanged |
| Http.StripBearerLeftmost | api/www/src/Controller/UserController.php:175 | `"Bearer "` is deleted wherever it first occurs, the text before it is kept and the text after it is stripped in turn; with `StripBearerUnchanged` this fixes the token for every header |
| Http.StripStandardHeader | api/www/src/Controller/UserController.php:175 | stripping `"Bearer " + t` gives `t` when `t` has no further prefix |
| Php.ImplodeExplode | api/www/src/Controller/UserController.php:178 | joining the pieces of `explode` gives back the string |
| Php.ExplodeImplode | api/www/src/Controller/UserController.php:178 | `explode` splits a join of separator-free pieces back into those pieces |
| Php.ExplodeCount | api/www/src/Controller/UserController.php:178-179 | `explode` yields one more piece than there are separators, so three parts means exactly two dots |
| Php.ExplodePiecesHaveNoSeparator | api/www/src/Controller/UserController.php:178 | no piece contains the separator |
| Php.RemoveAllAbsent | api/www/src/Controller/UserController.php:175 | `str_replace` leaves a string without the pattern unchanged |
| Php.RemoveAllLeftmost | api/www/src/Controller/UserController.php:175 | `str_replace` with an empty replacement deletes the leftmost occurrence and resumes after it, so the prefix before it is kept |
| Php.RemoveAllLeading | api/www/src/Controller/UserController.php:175 | `str_replace` removes a single leading occurrence from an otherwise pattern-free string |
| UserValidator.ValidateRegistrationData | api/www/src/Service/UserValidatorService.php:16-62 | the first failing check in order: missing fields (no `field`), then email empty or invalid, then password empty or shorter than 6; every error is 400; valid iff all checks pass; `strlen` on an array is a `TypeError`; each of the five messages is returned exactly when its check is the first to fail |
| UserValidator.PasswordLengthBoundary | api/www/src/Service/UserValidatorService.php:44-58 | with all else valid, a password shorter than 6 is rejected as too short and one of 6 or more passes |
| UserValidator.MissingFieldsWins | api/www/src/Service/UserValidatorService.php:19-24 | a missing field is reported whatever else is wrong |
| UserValidator.NamesOnlyNeedToBeSet | api/www/src/Service/UserValidatorService.php:19 | the names are only checked for being set, so any non-null name gives the same verdict |
| UserController.Register | api/www/src/Controller/UserController.php:39-100 | an existing email is 409 before validation; a validator error is returned with its status and without `status`; entity errors are 400; success stores one `ROLE_USER` user and returns its summary without the password; any non-201 changes nothing |
| UserController.Login | api/www/src/Controller/UserController.php:103-144 | empty email or password is 400; an unknown email or a wrong password is the same 401, with nothing changed; a found user with an array password is an uncaught 500; 200 iff the credentials check; success issues exactly one refresh token for the user and announces `expiresIn` 3600 and `refreshExpiresIn` 7776000 |
| UserController.Me | api/www/src/Controller/UserController.php:147-161 | 200 with only the email iff a user is authenticated |
| UserController.Logout | api/www/src/Controller/UserController.php:164-208 | no header, a token not in three parts, or no `exp` is 400 and changes nothing; an `exp` that is not an int is an uncaught 500; an int `exp` with an empty or string refresh token always answers 200 "Logged out successfully"; no other status occurs; success blacklists the bearer token until `exp` and revokes the body's refresh token iff it is non-empty; users are never changed |
| UserController.RefreshToken | api/www/src/Controller/UserController.php:211-247 | empty is 400; invalid or expired is 401 and changes nothing; a valid token gives 200, is revoked and replaced by a new token for the same owner, different from it |
| TokenLifecycle.AuthenticatedMe | api/www/src/Security/JwtTokenAuthenticator.php:30-44 | `GET /users/me` behind the authenticator answers 200 iff a non-blacklisted token is accepted by the library |
| TokenLifecycle.RegisterTwiceConflicts | api/www/src/Controller/UserController.php:43-49 | registering the same body again after success is a 409 that changes nothing |
| TokenLifecycle.InvalidCredentialsIndistinguishable | api/www/src/Controller/UserController.php:117-130 | an unknown email and a wrong password give identical responses and states |
| TokenLifecycle.LoginTokenRefreshes | api/www/src/Controller/UserController.php:136-142 | a login's refresh token can be exchanged at any time within 90 days |
| TokenLifecycle.RotationReplacesToken | api/www/src/Controller/UserController.php:231-241 | after rotation the presented token never validates, and the new one validates for exactly 90 days |
| TokenLifecycle.RotationIsSingleUse | api/www/src/Controller/UserController.php:221-246 | presenting a rotated token again is a 401 that changes nothing |
| TokenLifecycle.LogoutRevokesRefreshToken | api/www/src/Controller/UserController.php:198-203 | after a logout naming a refresh token, refreshing with it is a 401 |
| TokenLifecycle.LogoutBlocksAccessToken | api/www/src/Controller/UserController.php:164-207 | a logout with a well-formed bearer token whose payload carries an int `exp` in the future, whatever its other claims, succeeds, and until `exp` the authenticator rejects that token, so `/users/me` answers 401 |
| AuthStore.IsAuthenticated | front/src/stores/auth.ts:28 | true iff the access token is non-null and non-empty |
| AuthStore.TokenExpiresIn | front/src/stores/auth.ts:29-32 | never negative; zero iff there is no expiry or it has passed; otherwise the time left in seconds |
| AuthStore.ShouldRefreshIff | front/src/stores/auth.ts:33-36 | a refresh is due iff an expiry is set and fewer than 300000 ms remain, including when it has already passed |
| AuthStore.ShouldRefreshMatchesExpiresIn | front/src/stores/auth.ts:29-36 | a refresh is due iff an expiry is set and `tokenExpiresIn` is below 300 |
| AuthStore.FullNameOfNamedProfile | front/src/stores/auth.ts:37-40 | the name shown is first name, space, last name |
| AuthStore.SetTokens | front/src/stores/auth.ts:44-51 | both tokens are installed, the expiry is `now + expiresIn * 1000` ms, and the profile is kept |
| AuthStore.ClearTokens | front/src/stores/auth.ts:53-61 | tokens, expiry and profile are all dropped, so the store is signed out with no name |
| AuthStore.FetchUserProfile | front/src/stores/auth.ts:119-130 | true iff an access token is held and the fetch succeeds, in which case the profile is replaced; otherwise nothing changes |
| AuthStore.Login | front/src/stores/auth.ts:63-74 | true iff the server accepted; then the pair and expiry are installed and the profile is fetched: with a non-empty access token a successful fetch installs the profile, otherwise the profile is kept; a failure changes nothing |
| AuthStore.Register | front/src/stores/auth.ts:76-90 | a failed registration is false with no change; otherwise the result is that of the automatic login |
| AuthStore.Logout | front/src/stores/auth.ts:92-102 | with a working `clearTokens` (corrected store; `AuthStoreAsWritten.LogoutAsWritten` is the code as written): always ends cleared; the server is sent the refresh token iff one is held |
| AuthStore.RefreshAccessToken | front/src/stores/auth.ts:104-117 | with working `setTokens` and `clearTokens` (corrected store; `AuthStoreAsWritten.RefreshAccessTokenAsWritten` is the code as written): no refresh token is false with no change; failure clears everything; true iff the call succeeds, which installs the new pair and keeps the profile |
| AuthStore.CheckAuth | front/src/stores/auth.ts:132-144 | on the corrected store (`AuthStoreAsWritten.CheckAuthAsWritten` is the code as written), case by case: not due, it answers the profile fetch when signed in without a profile and `isAuthenticated` otherwise; due without a refresh token, the same on the unchanged store; due with a failed refresh, false and cleared; due with a renewed pair, false for an empty access token, else the fetch on the renewed store when there is no profile, else true; a true answer means signed in with a profile |
| AuthStore.FreshTokensNotDue | front/src/stores/auth.ts:33-51 | tokens installed with at least 300 s to live are due exactly in their last 300 s |
| AuthStore.LogoutSignsOut | front/src/stores/auth.ts:92-102 | after logout: not authenticated, nothing due, no name, and a second logout sends nothing |
| AuthStore.RefreshAllOrNothing | front/src/stores/auth.ts:104-117 | a refresh leaves the new pair installed, the store untouched, or the store fully cleared |
| AuthStoreAsWritten.SetTokensAsWritten | front/src/stores/auth.ts:44-51 | as written, the fields are assigned and then the call to the missing `setAuthTokens` throws |
| AuthStoreAsWritten.ClearTokensAsWritten | front/src/stores/auth.ts:53-61 | as written, the fields are nulled and then the call to the missing `clearAuthTokens` throws |
| AuthStoreAsWritten.LoginAsWritten | front/src/stores/auth.ts:63-74 | as written, `login` always resolves false; an accepted login leaves the new tokens installed and the profile unchanged, a rejected one changes nothing |
| AuthStoreAsWritten.LoginAsWrittenReportsFailure | front/src/stores/auth.ts:63-74 | as written, a login the server accepted resolves false with the session installed; `Login` resolves true |
| AuthStoreAsWritten.LogoutAsWritten | front/src/stores/auth.ts:92-102 | as written, `logout` clears the store and then rejects, from the `finally` block |
| AuthStoreAsWritten.RefreshAccessTokenAsWritten | front/src/stores/auth.ts:104-117 | as written, no refresh token resolves false with no change; with one, the store is cleared and the promise rejects, whatever the server answers |
| AuthStoreAsWritten.RefreshAsWrittenSignsOut | front/src/stores/auth.ts:104-117 | as written, a refresh the server accepts rejects with the store cleared; `RefreshAccessToken` installs the pair and resolves true |
| AuthStoreAsWritten.CheckAuthAsWritten | front/src/stores/auth.ts:132-144 | as written, `checkAuth` rejects with the store cleared when a refresh is due and a refresh token is held, and otherwise settles as `CheckAuth` |
| AuthStoreAsWritten.DueCheckAuthRejects | front/src/stores/auth.ts:132-144 | as written, a due session holding a refresh token is signed out and `checkAuth` rejects even when the server renews it; when a profile is held or can be fetched, `CheckAuth` answers true with the renewed tokens |
| AuthPlugin.BeforeEach | front/src/plugins/auth.ts:20-45 | over the corrected store (`AuthPluginAsWritten.BeforeEachAsWritten` is the guard over the store as written): `checkAuth` runs only for protected routes; its failure redirects to `login` with the full path; then guests-only routes send an authenticated user `home`; anything else proceeds |
| AuthPlugin.OnTick | front/src/plugins/auth.ts:48-52 | over the corrected store (`AuthPluginAsWritten.OnTickAsWritten` is the tick over the store as written): a tick refreshes iff authenticated with fewer than 300000 ms left, and otherwise changes nothing |
| AuthPlugin.BothFlagsNeverProceed | front/src/plugins/auth.ts:22-41 | a route both protected and guests-only is never entered |
| AuthPlugin.PublicRoutesProceed | front/src/plugins/auth.ts:22-44 | a route with neither flag proceeds and leaves the store alone |
| AuthPlugin.ProtectedRoutesNeedSession | front/src/plugins/auth.ts:22-33 | a protected route is entered only with an access token and a profile |
| AuthPlugin.SettledSessionProceeds | front/src/plugins/auth.ts:22-44 | a signed-in session with a profile and at least five minutes left enters a protected route without any API call |
| AuthPlugin.LoggedOutRedirectsToLogin | front/src/plugins/auth.ts:22-33 | after logout, a protected route redirects to `login` carrying its path |
| AuthPluginAsWritten.BeforeEachAsWritten | front/src/plugins/auth.ts:20-45 | over the store as written, a protected route with a due refresh and a held refresh token abandons navigation with the store cleared; every other navigation ends as `BeforeEach` |
| AuthPluginAsWritten.OnTickAsWritten | front/src/plugins/auth.ts:48-52 | over the store as written, a tick refreshes exactly when `OnTick` does, and a refresh with a held refresh token leaves the store cleared; otherwise nothing changes |
| AuthPluginAsWritten.DueSessionAborts | front/src/plugins/auth.ts:20-33 | as written, a signed-in session with a due refresh cannot enter a protected route even when the server renews it; when a profile is held or can be fetched, `BeforeEach` lets it through with the renewed tokens |
| AuthPluginAsWritten.LoginThenDueRouteAborts | front/src/plugins/auth.ts:20-33 | as written, after a login the server accepts (tokens installed, no profile fetched, `false` returned), the first protected route visited within five minutes of expiry is abandoned with the user signed out, whatever the API answers |
| AuthPluginAsWritten.TickAsWrittenSignsOut | front/src/plugins/auth.ts:48-52 | as written, the first tick in the last five minutes signs the user out whatever the server answers |
| ApiResponse.FromResponse | api/www/tests/Utils/ApiResponse.php:18-29 | a null or undecodable body gives empty data, a non-array body throws, and a header is flattened to a string iff it has exactly one value |
| ApiResponse.Get | api/www/tests/Utils/ApiResponse.php:53-70 | a plain key gives its value unless missing or null, which gives the default; a dotted key gives what the walk of its `explode` segments reaches, null included, and the default exactly when the walk fails |
| ApiResponse.HasIff | api/www/tests/Utils/ApiResponse.php:75-78 | `has` holds iff a plain key is present and non-null, or a dotted key's walk reaches a value, null included |
| ApiResponse.DefaultOnlyWhenAbsent | api/www/tests/Utils/ApiResponse.php:53-78 | a found key's value does not depend on the default; an absent key gives the default |
| ApiResponse.WalkNest | api/www/tests/Utils/ApiResponse.php:61-69 | walking the path a value was nested under finds it |
| ApiResponse.WalkAppend | api/www/tests/Utils/ApiResponse.php:61-69 | walking a concatenated path is walking the first part and then the second |
| ApiResponse.WalkStopsAtScalar | api/www/tests/Utils/ApiResponse.php:62-64 | a walk that reaches a non-array before the path ends gives up |
| ApiResponse.GetFindsNested | api/www/tests/Utils/ApiResponse.php:57-69 | a dotted key of dot-free segments finds the nested value, whatever it is and whatever the default |
| ApiResponse.GetDottedWalks | api/www/tests/Utils/ApiResponse.php:57-69 | for any data, a dotted key of dot-free segments gives what walking those segments reaches, else the default |
| ApiResponse.NullLeafAsymmetry | api/www/tests/Utils/ApiResponse.php:57-69 | for any data, a null under a plain key counts as absent and `get` gives the default, while a null reached by a dotted key counts as present and `get` returns it |
| ApiResponse.Header | api/www/tests/Utils/ApiResponse.php:91-95 | the value under the lower-cased name, else the default |
| ApiResponse.HeaderCaseInsensitive | api/www/tests/Utils/ApiResponse.php:91-103 | names equal up to case give the same `header` and `hasHeader` answers |
| ApiResponse.HasHeaderMatchesIgnoringCase | api/www/tests/Utils/ApiResponse.php:100-103 | with lower-case stored names, `hasHeader` holds iff some stored name matches up to case |
| ApiResponse.StatusClassesPartition | api/www/tests/Utils/ApiResponse.php:108-135 | the four status classes are pairwise disjoint, and together they cover exactly the statuses from 200 up |

## Left out

- Doctrine persistence: `persist`, `flush`, transactions and the `save`/`remove` `$flush` flag. Each store change is applied at once to an in-memory map.
- Symfony routing, the DI container, the firewall configuration and `tokenStorage->setToken(null)` in `logout`. None of these affects the outcome the model computes.
- `FilesystemAdapter` internals: probabilistic early expiration, the on-disk format and concurrent access. The cache is a key → expiry map with a miss at or after the expiry.
- The JWT library: token extraction, signature checks, minting and the parent `doAuthenticate`. These are inputs or uninterpreted functions.
- Password hashing, `FILTER_VALIDATE_EMAIL`, sha256, base64/JSON payload decoding and the entity validator's constraints. These are abstract functions. Collision-freedom of sha256 appears only as a lemma requirement.
- `random_bytes`: an input the caller promises is fresh. RefreshTokenService.CreateRefreshToken requires it, because the code neither detects nor retries a collision.
- Clocks: server time is whole epoch seconds. The microseconds in `DateTimeImmutable` and the float arithmetic of `new Date()` are not modelled.
- UserController.Logout: a numeric-string `exp` claim is treated like any other non-int, so it is a `TypeError`; PHP would coerce it. Float claims are not modelled either.
- UserValidator.ValidateRegistrationData: `strlen` counts bytes while the model counts characters, which differs for non-ASCII passwords. Float JSON values are not part of `Php.Value`.
- UserController.Login: an email sent as a JSON array is not modelled as Doctrine's `IN (...)` lookup. The model finds no user and answers 401, where the code may find a user whose email is in the array and answer 200.
- UserController.Register: the duplicate check has the same gap: an array email finds no user, where Doctrine's `IN (...)` lookup may find one and the code answer 409. Other non-string emails are looked up by their string form.
- The `User` entity's setters are assumed to store any value, with no type check for non-string names. New user ids come from a counter in the server state (`nextUserId`), standing in for the database sequence.
- The start-up `checkAuth()` in `setupAuth` is `AuthStore.CheckAuth` with its answer ignored, so it has no member of its own.
- Concurrent requests, for example two rotations of the same refresh token racing each other. The code does nothing about them, and the model is sequential.
- Browser storage and timers on the front end: `localStorage`, `setInterval` and the ISO date strings in `tokenExpiry`. The expiry is a millisecond count, and the tick is an explicit call.
- The `fetch` wrappers in front/src/services. Their outcomes are the `ApiResult` arguments. The extra "authenticated" argument that auth.api.service.ts passes is ignored by api.service.ts, so no `Authorization` header is ever sent.
- `console.error` logging, the `ping` endpoint and its service, application bootstrap, the browser tests and the PHP test scaffolding.
- `ApiResponse.getStatusCode`, `json`, `headers` and `getOriginalResponse` are plain accessors. `null` header values are not modelled.

## Findings

| source | as written | input that shows it | evidently intended | confidence | as-written member | corrected member |
|---|---|---|---|---|---|---|
| front/src/stores/auth.ts:50 | `setTokens` calls `apiService.setAuthTokens`, which front/src/services/api.service.ts (lines 22-73, only `get` and `post`) does not define. The call throws after the three fields are assigned, and `login`'s own `catch` turns that into `false` before the profile is fetched. `register` inherits this through its automatic login. | a login the server accepts with any non-empty access token | tokens are persisted and `login` resolves `true` | medium, not executed (the service file may have been extended elsewhere) | AuthStoreAsWritten.LoginAsWritten, AuthStoreAsWritten.LoginAsWrittenReportsFailure | AuthStore.Login |
| front/src/stores/auth.ts:60 | `clearTokens` calls `apiService.clearAuthTokens`, which the service does not define either. The call throws after the four fields are nulled. `logout` calls it from its `finally` block, so `logout` always rejects. | any call to `logout` | tokens are removed from storage and `logout` resolves | medium, not executed (as above) | AuthStoreAsWritten.ClearTokensAsWritten, AuthStoreAsWritten.LogoutAsWritten | AuthStore.ClearTokens, AuthStore.Logout |
| front/src/stores/auth.ts:110 | Every refresh made while a refresh token is held signs the user out and rejects. A successful refresh calls the throwing `setTokens`, a failed one throws itself, and either way the `catch` at lines 112-115 calls the throwing `clearTokens`. `checkAuth` awaits the refresh and rejects, and the guard's rejection abandons navigation to a protected route; the tick leaves the store cleared. | a login the server accepts (as written it installs the tokens without a profile), then a visit to a protected route once fewer than five minutes of the access token remain | the new pair is installed, the refresh resolves `true` and navigation proceeds | medium, not executed (as above) | AuthStoreAsWritten.RefreshAsWrittenSignsOut, AuthPluginAsWritten.LoginThenDueRouteAborts, AuthStoreAsWritten.DueCheckAuthRejects, AuthPluginAsWritten.DueSessionAborts | AuthStore.RefreshAccessToken, AuthStore.CheckAuth, AuthPlugin.BeforeEach |

=== FILE: api_response.dfy ===
/** The test suite's response wrapper: the decoded JSON body with dot-path
    lookup, the headers flattened and looked up by lower-cased name, and the
    status-class predicates. */
module ApiResponse {
  import opened Wrappers
  import opened Php

  /** A header as the wrapper keeps it: one value flattened to a string,
      any other count kept as the list. */
  datatype HeaderValue = Single(value: string) | Multiple(values: seq<string>)

  /** A `mixed` result of `get`: a JSON value, or the wrapper object itself,
      which `has` passes as the default it then compares against. */
  datatype Mixed = Json(value: Value) | Sentinel

  datatype Wrapped = Wrapped(statusCode: int, jsonData: map<string, Value>, headers: map<string, HeaderValue>)

  /** The constructor. `body` is `json_decode($content, true)`, `None` when
      the content does not decode; null or undecodable content gives an empty
      array, and any other non-array makes the typed property assignment
      throw (`None`). `headers` is the response's header bag, whose names are
      already lower case. */
  function FromResponse(statusCode: int, body: Option<Value>, headers: map<string, seq<string>>)
    : (r: Option<Wrapped>)
    ensures r.None? <==> body.Some? && !body.value.Null? && !body.value.Arr?
    ensures r.Some? ==> r.value.statusCode == statusCode
    ensures r.Some? && (body.None? || body.value.Null?) ==> r.value.jsonData == map[]
    ensures r.Some? && body.Some? && body.value.Arr? ==> r.value.jsonData == body.value.entries
    ensures r.Some? ==> r.value.headers.Keys == headers.Keys
    ensures r.Some? ==> forall k :: k in headers ==>
      (r.value.headers[k].Single? <==> |headers[k]| == 1)
      && (r.value.headers[k].Single? ==> r.value.headers[k].value == headers[k][0])
      && (r.value.headers[k].Multiple? ==> r.value.headers[k].values == headers[k])
  {
    var data: Option<map<string, Value>> :=
      match body
      case None => Some(map[])
      case Some(Null) => Some(map[])
      case Some(Arr(entries)) => Some(entries)
      case Some(_) => None;
    if data.None? then None
    else
      var flat := map k | k in headers :: Flatten(headers[k]);
      Some(Wrapped(statusCode, data.value, flat))
  }

  /** One header's values, flattened when there is exactly one. */
  function Flatten(values: seq<string>): HeaderValue {
    if |values| == 1 then Single(values[0]) else Multiple(values)
  }

  /** The loop over the segments of a dotted key: each step needs an array
      that has the segment as a key; the value reached may be null. */
  function Walk(v: Value, segments: seq<string>): Option<Value>
    decreases |segments|
  {
    if segments == [] then Some(v)
    else if v.Arr? && segments[0] in v.entries then Walk(v.entries[segments[0]], segments[1..])
    else None
  }

  /** `get`: a key without a dot is read with `??`, so a missing key and a
      null value both give the default; a dotted key is walked segment by
      segment and a null leaf is returned as it is. */
  function Get(data: map<string, Value>, key: string, default: Mixed): (r: Mixed)
    ensures '.' !in key && key in data && !data[key].Null? ==> r == Json(data[key])
    ensures '.' !in key && (key !in data || data[key].Null?) ==> r == default
    ensures '.' in key ==> (r != default ==> r.Json? && Walk(Arr(data), Explode('.', key)) == Some(r.value))
    ensures '.' in key && Walk(Arr(data), Explode('.', key)).Some? ==>
      r == Json(Walk(Arr(data), Explode('.', key)).value)
    ensures '.' in key && Walk(Arr(data), Explode('.', key)).None? ==> r == default
  {
    if '.' !in key then
      if key in data && !data[key].Null? then Json(data[key]) else default
    else
      match Walk(Arr(data), Explode('.', key))
      case Some(v) => Json(v)
      case None => default
  }

  /** `has`: `get` with the wrapper itself as the default did not return
      the wrapper. */
  predicate Has(data: map<string, Value>, key: string) {
    Get(data, key, Sentinel) != Sentinel
  }

  /** `header`: the value under the lower-cased name, else the default. */
  function Header(headers: map<string, HeaderValue>, name: string, default: Option<HeaderValue>)
    : (r: Option<HeaderValue>)
    ensures ToLower(name) in headers ==> r == Some(headers[ToLower(name)])
    ensures ToLower(name) !in headers ==> r == default
  {
    var key := ToLower(name);
    if key in headers then Some(headers[key]) else default
  }

  /** `hasHeader`: `isset` under the lower-cased name. */
  predicate HasHeader(headers: map<string, HeaderValue>, name: string) {
    ToLower(name) in headers
  }

  predicate IsSuccessful(status: int) { 200 <= status < 300 }
  predicate IsRedirect(status: int) { 300 <= status < 400 }
  predicate IsClientError(status: int) { 400 <= status < 500 }
  predicate IsServerError(status: int) { status >= 500 }

  /** `has` holds exactly when the key is found: present and non-null for a
      plain key, reachable (null leaf included) for a dotted one. */
  lemma HasIff(data: map<string, Value>, key: string)
    ensures Has(data, key) <==>
      if '.' in key then Walk(Arr(data), Explode('.', key)).Some?
      else key in data && !data[key].Null?
  {
  }

  /** When a key is found the default plays no part; when it is not, `get`
      returns the default. */
  lemma DefaultOnlyWhenAbsent(data: map<string, Value>, key: string, d1: Mixed, d2: Mixed)
    ensures Has(data, key) ==> Get(data, key, d1) == Get(data, key, d2) && Get(data, key, d1).Json?
    ensures !Has(data, key) ==> Get(data, key, d1) == d1
  {
  }

  /** The value holding `leaf` at the path `segments`. */
  function Nest(segments: seq<string>, leaf: Value): (r: Value)
    ensures segments != [] ==> r.Arr?
    decreases |segments|
  {
    if segments == [] then leaf else Arr(map[segments[0] := Nest(segments[1..], leaf)])
  }

  /** Walking the path a value was nested under finds the value. */
  lemma {:induction false} WalkNest(segments: seq<string>, leaf: Value)
    ensures Walk(Nest(segments, leaf), segments) == Some(leaf)
    decreases |segments|
  {
    if segments != [] {
      WalkNest(segments[1..], leaf);
    }
  }

  /** Walking a concatenated path is walking the first part and then, from
      what it reached, the second. */
  lemma {:induction false} WalkAppend(v: Value, a: seq<string>, b: seq<string>)
    ensures Walk(v, a + b) ==
      match Walk(v, a)
      case Some(w) => Walk(w, b)
      case None => None
    decreases |a|
  {
    if a == [] {
      assert a + b == b;
    } else {
      assert (a + b)[0] == a[0];
      assert (a + b)[1..] == a[1..] + b;
      if v.Arr? && a[0] in v.entries {
        WalkAppend(v.entries[a[0]], a[1..], b);
      }
    }
  }

  /** A dotted key built from dot-free segments finds the value nested
      under them, whatever it is and whatever the default; null included. */
  lemma GetFindsNested(segments: seq<string>, leaf: Value, default: Mixed)
    requires |segments| >= 2
    requires forall i :: 0 <= i < |segments| ==> '.' !in segments[i]
    ensures Get(Nest(segments, leaf).entries, Implode('.', segments), default) == Json(leaf)
  {
    var key := Implode('.', segments);
    ExplodeImplode('.', segments);
    assert '.' in key;
    WalkNest(segments, leaf);
  }

  /** Once a walk reaches a non-array before the path ends it gives up,
      whatever the remaining segments: a scalar, null included, has no keys. */
  lemma WalkStopsAtScalar(v: Value, prefix: seq<string>, rest: seq<string>)
    requires Walk(v, prefix).Some? && !Walk(v, prefix).value.Arr?
    requires rest != []
    ensures Walk(v, prefix + rest).None?
  {
    WalkAppend(v, prefix, rest);
  }

  /** A dotted key built from dot-free segments is looked up by walking
      exactly those segments. */
  lemma {:induction false} GetDottedWalks(data: map<string, Value>, segments: seq<string>, default: Mixed)
    requires |segments| >= 2
    requires forall i :: 0 <= i < |segments| ==> '.' !in segments[i]
    ensures Walk(Arr(data), segments).Some? ==>
      Get(data, Implode('.', segments), default) == Json(Walk(Arr(data), segments).value)
    ensures Walk(Arr(data), segments).None? ==> Get(data, Implode('.', segments), default) == default
  {
    ExplodeImplode('.', segments);
    assert '.' in Implode('.', segments);
  }

  /** The two readings of null, for any data: a null stored under a plain
      key counts as absent and `get` gives the default, but a null reached
      through a dotted key counts as present and `get` returns it, whatever
      the default. */
  lemma {:induction false} NullLeafAsymmetry(data: map<string, Value>, key: string, segments: seq<string>, default: Mixed)
    requires |segments| >= 2
    requires forall i :: 0 <= i < |segments| ==> '.' !in segments[i]
    ensures '.' !in key && key in data && data[key].Null? ==>
      !Has(data, key) && Get(data, key, default) == default
    ensures Walk(Arr(data), segments) == Some(Null) ==>
      Has(data, Implode('.', segments)) && Get(data, Implode('.', segments), default) == Json(Null)
  {
    GetDottedWalks(data, segments, default);
    GetDottedWalks(data, segments, Sentinel);
  }

  /** Header lookup ignores the case of the requested name. */
  lemma HeaderCaseInsensitive(headers: map<string, HeaderValue>, a: string, b: string, d: Option<HeaderValue>)
    requires ToLower(a) == ToLower(b)
    ensures Header(headers, a, d) == Header(headers, b, d)
    ensures HasHeader(headers, a) == HasHeader(headers, b)
  {
  }

  /** With lower-case stored names, `hasHeader` holds exactly when some
      stored name matches the requested one up to case. */
  lemma HasHeaderMatchesIgnoringCase(headers: map<string, HeaderValue>, name: string)
    requires forall k :: k in headers ==> ToLower(k) == k
    ensures HasHeader(headers, name) <==> exists k :: k in headers && ToLower(k) == ToLower(name)
  {
    if HasHeader(headers, name) {
      ToLowerIdempotent(name);
      assert ToLower(ToLower(name)) == ToLower(name);
    }
  }

  /** The status classes never overlap, and every status from 200 on is in
      exactly one of them. */
  lemma StatusClassesPartition(status: int)
    ensures !(IsSuccessful(status) && IsRedirect(status))
    ensures !(IsSuccessful(status) && IsClientError(status))
    ensures !(IsSuccessful(status) && IsServerError(status))
    ensures !(IsRedirect(status) && IsClientError(status))
    ensures !(IsRedirect(status) && IsServerError(status))
    ensures !(IsClientError(status) && IsServerError(status))
    ensures status >= 200 <==>
      IsSuccessful(status) || IsRedirect(status) || IsClientError(status) || IsServerError(status)
  {
  }
}

=== FILE: auth_plugin.dfy ===
/** The router plugin: the navigation guard run before every route change,
    and the once-a-minute refresh tick. Both act on the store in
    `AuthStore`; the API outcomes they would provoke are arguments. */
module AuthPlugin {
  import opened Wrappers
  import opened AuthStore

  /** The target route: its full path and the two meta flags. */
  datatype Route = Route(fullPath: string, requiresAuth: bool, guestOnly: bool)

  /** The argument the guard passes to `next`: nothing (carry on), or a
      named route with an optional `redirect` query. */
  datatype Next = Proceed | RedirectTo(name: string, redirect: Option<string>)

  /** The store after the guard and where navigation goes. */
  datatype Navigation = Navigation(state: AuthState, next: Next)

  /** The store after a tick and whether the tick started a refresh. */
  datatype Tick = Tick(state: AuthState, refreshed: bool)

  /** The `beforeEach` guard: `checkAuth` only for protected routes, whose
      failure redirects to `login` with the full path to come back to; then
      guests-only routes send an authenticated user `home`; anything else
      proceeds. */
  function BeforeEach(
    st: AuthState, to: Route, now: int, refresh: ApiResult<TokenPair>, profile: ApiResult<Profile>)
    : (r: Navigation)
    ensures !to.requiresAuth ==> r.state == st
    ensures to.requiresAuth ==> r.state == CheckAuth(st, now, refresh, profile).state
    ensures r.next == RedirectTo("login", Some(to.fullPath)) <==>
      to.requiresAuth && !CheckAuth(st, now, refresh, profile).ok
    ensures r.next == RedirectTo("home", None) <==>
      (to.requiresAuth ==> CheckAuth(st, now, refresh, profile).ok) && to.guestOnly && IsAuthenticated(r.state)
    ensures r.next.Proceed? || r.next == RedirectTo("login", Some(to.fullPath)) || r.next == RedirectTo("home", None)
  {
    if to.requiresAuth && !CheckAuth(st, now, refresh, profile).ok then
      Navigation(CheckAuth(st, now, refresh, profile).state, RedirectTo("login", Some(to.fullPath)))
    else
      var st1 := if to.requiresAuth then CheckAuth(st, now, refresh, profile).state else st;
      if to.guestOnly && IsAuthenticated(st1) then Navigation(st1, RedirectTo("home", None))
      else Navigation(st1, Proceed)
  }

  /** The periodic check: a refresh is started exactly when the store is
      authenticated and due; otherwise nothing changes. */
  function OnTick(st: AuthState, now: int, refresh: ApiResult<TokenPair>): (r: Tick)
    ensures r.refreshed <==> IsAuthenticated(st) && st.tokenExpiry.Some? && st.tokenExpiry.value - now < 300000
    ensures !r.refreshed ==> r.state == st
    ensures r.refreshed ==> r.state == RefreshAccessToken(st, now, refresh).state
  {
    ShouldRefreshIff(st, now);
    if IsAuthenticated(st) && ShouldRefreshToken(st, now) then
      Tick(RefreshAccessToken(st, now, refresh).state, true)
    else Tick(st, false)
  }

  /** A route flagged both protected and guests-only is unreachable: the
      guard redirects to `login` or to `home`, never proceeds. */
  lemma BothFlagsNeverProceed(
    st: AuthState, to: Route, now: int, refresh: ApiResult<TokenPair>, profile: ApiResult<Profile>)
    requires to.requiresAuth && to.guestOnly
    ensures !BeforeEach(st, to, now, refresh, profile).next.Proceed?
  {
  }

  /** A route with neither flag always proceeds and leaves the store alone. */
  lemma PublicRoutesProceed(
    st: AuthState, to: Route, now: int, refresh: ApiResult<TokenPair>, profile: ApiResult<Profile>)
    requires !to.requiresAuth && !to.guestOnly
    ensures BeforeEach(st, to, now, refresh, profile) == Navigation(st, Proceed)
  {
  }

  /** Whenever the guard lets a protected route through, the store holds an
      access token and a profile. */
  lemma ProtectedRoutesNeedSession(
    st: AuthState, to: Route, now: int, refresh: ApiResult<TokenPair>, profile: ApiResult<Profile>)
    requires to.requiresAuth
    ensures var r := BeforeEach(st, to, now, refresh, profile);
      r.next.Proceed? ==> IsAuthenticated(r.state) && r.state.user.Some?
  {
  }

  /** A signed-in session with a profile and more than five minutes left
      reaches a protected route without touching the API. */
  lemma SettledSessionProceeds(
    st: AuthState, to: Route, now: int, refresh: ApiResult<TokenPair>, profile: ApiResult<Profile>)
    requires to.requiresAuth && !to.guestOnly
    requires IsAuthenticated(st) && st.user.Some?
    requires st.tokenExpiry.None? || st.tokenExpiry.value - now >= 300000
    ensures BeforeEach(st, to, now, refresh, profile) == Navigation(st, Proceed)
  {
    ShouldRefreshIff(st, now);
  }

  /** After logging out, a protected route redirects to `login` whatever the
      API would answer, carrying the path to return to. */
  lemma LoggedOutRedirectsToLogin(
    st: AuthState, to: Route, now: int, refresh: ApiResult<TokenPair>, profile: ApiResult<Profile>)
    requires to.requiresAuth
    ensures BeforeEach(Logout(st).state, to, now, refresh, profile)
      == Navigation(Cleared, RedirectTo("login", Some(to.fullPath)))
  {
  }
}

=== FILE: auth_plugin_as_written.dfy ===
/** The router plugin running on the store as written
    (`AuthStoreAsWritten`): the guard awaits a `checkAuth` that can reject,
    and the tick starts a refresh that can reject with nobody awaiting it. */
module AuthPluginAsWritten {
  import opened Wrappers
  import opened AuthStore
  import opened AuthStoreAsWritten
  import opened AuthPlugin

  /** How the guard ended: it called `next`, or its promise rejected, which
      makes the router abandon the navigation. */
  datatype Guarded = Navigated(nav: Navigation) | Aborted(state: AuthState)

  /** The `beforeEach` guard over `CheckAuthAsWritten`. */
  function BeforeEachAsWritten(
    st: AuthState, to: Route, now: int, refresh: ApiResult<TokenPair>, profile: ApiResult<Profile>)
    : (r: Guarded)
    ensures to.requiresAuth && RefreshDue(st, now) && Truthy(st.refreshToken) ==> r == Aborted(Cleared)
    ensures !(to.requiresAuth && RefreshDue(st, now) && Truthy(st.refreshToken)) ==>
      r == Navigated(BeforeEach(st, to, now, refresh, profile))
  {
    var checked := if to.requiresAuth then CheckAuthAsWritten(st, now, refresh, profile) else Resolved(st, true);
    match checked
    case Rejected(st1) => Aborted(st1)
    case Resolved(st1, ok) =>
      if !ok then Navigated(Navigation(st1, RedirectTo("login", Some(to.fullPath))))
      else if to.guestOnly && IsAuthenticated(st1) then Navigated(Navigation(st1, RedirectTo("home", None)))
      else Navigated(Navigation(st1, Proceed))
  }

  /** The periodic check over `RefreshAccessTokenAsWritten`: whether a
      refresh starts is unchanged, but a started refresh leaves the store
      cleared whenever a refresh token is held. */
  function OnTickAsWritten(st: AuthState, now: int, refresh: ApiResult<TokenPair>): (r: Tick)
    ensures r.refreshed == OnTick(st, now, refresh).refreshed
    ensures r.refreshed && Truthy(st.refreshToken) ==> r.state == Cleared
    ensures !(r.refreshed && Truthy(st.refreshToken)) ==> r.state == st
  {
    if IsAuthenticated(st) && ShouldRefreshToken(st, now) then
      Tick(RefreshAccessTokenAsWritten(st, now, refresh).state, true)
    else Tick(st, false)
  }

  /** As written, a signed-in session whose refresh is due cannot reach a
      protected route: navigation is abandoned and the user signed out,
      although the server would renew the session and a profile is held or
      can be fetched; the guard over the corrected store lets it through
      with the renewed tokens. */
  lemma DueSessionAborts(
    st: AuthState, to: Route, now: int, pair: TokenPair, profile: ApiResult<Profile>)
    requires to.requiresAuth && !to.guestOnly
    requires IsAuthenticated(st) && Truthy(st.refreshToken)
    requires st.tokenExpiry.Some? && st.tokenExpiry.value - now < 300000
    requires st.user.Some? || profile.Ok?
    requires pair.accessToken != ""
    ensures BeforeEachAsWritten(st, to, now, Ok(pair), profile) == Aborted(Cleared)
    ensures var r := BeforeEach(st, to, now, Ok(pair), profile);
      r.next == Proceed && r.state.accessToken == Some(pair.accessToken)
  {
    ShouldRefreshIff(st, now);
    DueCheckAuthRejects(st, now, pair, profile);
  }

  /** The state that case needs arises as written: a login the server
      accepts installs the tokens (without a profile), and once fewer than
      five minutes of them remain, the next protected route is abandoned
      with the user signed out, whatever the API answers. */
  lemma LoginThenDueRouteAborts(
    st: AuthState, t0: int, login: TokenPair, profile0: ApiResult<Profile>,
    to: Route, now: int, refresh: ApiResult<TokenPair>, profile: ApiResult<Profile>)
    requires login.accessToken != "" && login.refreshToken != ""
    requires to.requiresAuth
    requires now > t0 + login.expiresIn * 1000 - 300000
    ensures var st1 := LoginAsWritten(st, t0, Ok(login), profile0).state;
      !LoginAsWritten(st, t0, Ok(login), profile0).ok && IsAuthenticated(st1) && st1.user == st.user
      && BeforeEachAsWritten(st1, to, now, refresh, profile) == Aborted(Cleared)
  {
    var st1 := LoginAsWritten(st, t0, Ok(login), profile0).state;
    ShouldRefreshIff(st1, now);
  }

  /** As written, the first tick inside the last five minutes signs the
      user out whatever the server answers. */
  lemma TickAsWrittenSignsOut(st: AuthState, now: int, refresh: ApiResult<TokenPair>)
    requires IsAuthenticated(st) && Truthy(st.refreshToken)
    requires st.tokenExpiry.Some? && st.tokenExpiry.value - now < 300000
    ensures OnTickAsWritten(st, now, refresh) == Tick(Cleared, true)
  {
  }
}

=== FILE: auth_store.dfy ===
/** The front end's authentication store: the held tokens, their expiry and
    the profile, with the getters the UI reads and the actions that talk to
    the API. Time is an integer count of milliseconds `now`; every API call
    is replaced by its outcome, supplied as an argument, and persistence to
    browser storage is not modelled. */
module AuthStore {
  import opened Wrappers

  /** The profile as received: a field the server did not send is `None`,
      which a template literal renders as "undefined". */
  datatype Profile = Profile(id: Option<int>, email: Option<string>, firstName: Option<string>, lastName: Option<string>)

  /** The store's state; `tokenExpiry` is the expiry instant in ms. */
  datatype AuthState = AuthState(
    user: Option<Profile>,
    accessToken: Option<string>,
    refreshToken: Option<string>,
    tokenExpiry: Option<int>)

  /** What a token endpoint answers with. */
  datatype TokenPair = TokenPair(accessToken: string, refreshToken: string, expiresIn: int)

  /** The outcome of an API call: its decoded response, or a thrown error. */
  datatype ApiResult<+T> = Ok(value: T) | Err

  /** The state after an action and the boolean the action resolves to. */
  datatype Step = Step(state: AuthState, ok: bool)

  /** The state after `logout` and the refresh token it sent, if any. */
  datatype LogoutStep = LogoutStep(state: AuthState, sent: Option<string>)

  /** A refresh is due once fewer than 300 seconds remain. */
  const RefreshMarginMs: int := 300 * 1000

  /** The state with nothing held. */
  const Cleared: AuthState := AuthState(None, None, None, None)

  /** JavaScript truthiness of an optional string. */
  predicate Truthy(s: Option<string>) {
    s.Some? && s.value != ""
  }

  /** `isAuthenticated`: `!!accessToken`. */
  function IsAuthenticated(st: AuthState): (r: bool)
    ensures r <==> st.accessToken.Some? && st.accessToken.value != ""
  {
    Truthy(st.accessToken)
  }

  /** `tokenExpiresIn`, in seconds: the time left, clamped at zero. */
  function TokenExpiresIn(st: AuthState, now: int): (r: real)
    ensures r >= 0.0
    ensures r == 0.0 <==> st.tokenExpiry.None? || st.tokenExpiry.value <= now
    ensures st.tokenExpiry.Some? && now < st.tokenExpiry.value ==>
      r * 1000.0 == (st.tokenExpiry.value - now) as real
  {
    match st.tokenExpiry
    case None => 0.0
    case Some(e) =>
      var left := (e - now) as real / 1000.0;
      if left > 0.0 then left else 0.0
  }

  /** `shouldRefreshToken`: an expiry is set and the time left, in seconds
      and possibly negative, is under 300. */
  predicate ShouldRefreshToken(st: AuthState, now: int) {
    st.tokenExpiry.Some? && (st.tokenExpiry.value - now) as real / 1000.0 < 300.0
  }

  /** `fullName`: both names joined by a space, or null without a profile. */
  function FullName(st: AuthState): Option<string> {
    match st.user
    case None => None
    case Some(u) => Some(Render(u.firstName) + " " + Render(u.lastName))
  }

  /** A string interpolated into a template literal. */
  function Render(s: Option<string>): string {
    match s
    case Some(v) => v
    case None => "undefined"
  }

  /** `setTokens`: installs both tokens and the expiry `expiresIn` seconds
      after `now`; the profile is untouched. */
  function SetTokens(st: AuthState, pair: TokenPair, now: int): (r: AuthState)
    ensures r.accessToken == Some(pair.accessToken) && r.refreshToken == Some(pair.refreshToken)
    ensures r.tokenExpiry == Some(now + pair.expiresIn * 1000)
    ensures r.user == st.user
  {
    st.(accessToken := Some(pair.accessToken),
        refreshToken := Some(pair.refreshToken),
        tokenExpiry := Some(now + pair.expiresIn * 1000))
  }

  /** `clearTokens`: drops the tokens, the expiry and the profile. */
  function ClearTokens(st: AuthState): (r: AuthState)
    ensures r.user.None? && r.accessToken.None? && r.refreshToken.None? && r.tokenExpiry.None?
    ensures !IsAuthenticated(r) && FullName(r).None?
    ensures forall now :: !ShouldRefreshToken(r, now)
  {
    Cleared
  }

  /** `fetchUserProfile`: without an access token it answers false and does
      nothing; otherwise a fetched profile replaces the held one, and a
      failed fetch leaves the state as it was. */
  function FetchUserProfile(st: AuthState, profile: ApiResult<Profile>): (r: Step)
    ensures r.ok <==> IsAuthenticated(st) && profile.Ok?
    ensures r.ok ==> r.state == st.(user := Some(profile.value))
    ensures !r.ok ==> r.state == st
  {
    if !IsAuthenticated(st) then Step(st, false)
    else match profile
      case Ok(p) => Step(st.(user := Some(p)), true)
      case Err => Step(st, false)
  }

  /** `login`: a successful call installs the pair and then fetches the
      profile, whose own verdict is ignored; a failed call changes nothing. */
  function Login(st: AuthState, now: int, response: ApiResult<TokenPair>, profile: ApiResult<Profile>): (r: Step)
    ensures r.ok <==> response.Ok?
    ensures !r.ok ==> r.state == st
    ensures r.ok ==>
      && r.state.accessToken == Some(response.value.accessToken)
      && r.state.refreshToken == Some(response.value.refreshToken)
      && r.state.tokenExpiry == Some(now + response.value.expiresIn * 1000)
    ensures r.ok ==> (r.state.user != st.user ==> profile.Ok? && r.state.user == Some(profile.value))
    ensures response.Ok? && response.value.accessToken != "" && profile.Ok? ==>
      r.state.user == Some(profile.value)
    ensures response.Ok? && (response.value.accessToken == "" || profile.Err?) ==> r.state.user == st.user
  {
    match response
    case Err => Step(st, false)
    case Ok(pair) =>
      var fetched := FetchUserProfile(SetTokens(st, pair, now), profile);
      Step(fetched.state, true)
  }

  /** `register`: a failed registration answers false and changes nothing;
      otherwise the answer is that of the automatic login. */
  function Register(
    st: AuthState, now: int, registration: ApiResult<()>, response: ApiResult<TokenPair>, profile: ApiResult<Profile>)
    : (r: Step)
    ensures registration.Err? ==> r == Step(st, false)
    ensures registration.Ok? ==> r == Login(st, now, response, profile)
  {
    match registration
    case Err => Step(st, false)
    case Ok(_) => Login(st, now, response, profile)
  }

  /** `logout`: the server is told only when a refresh token is held, and
      the state ends cleared whatever the server answered: an error from the
      server call is caught and logged, and the `finally` block clears. With
      `clearTokens` as written, that `finally` block itself throws; see
      `AuthStoreAsWritten.LogoutAsWritten`. */
  function Logout(st: AuthState): (r: LogoutStep)
    ensures r.state == Cleared
    ensures r.sent.Some? <==> Truthy(st.refreshToken)
    ensures r.sent.Some? ==> r.sent == st.refreshToken
  {
    var sent := if Truthy(st.refreshToken) then st.refreshToken else None;
    LogoutStep(ClearTokens(st), sent)
  }

  /** `refreshAccessToken`: without a refresh token it answers false and
      changes nothing; a failed call clears everything; a successful one
      installs the new pair. */
  function RefreshAccessToken(st: AuthState, now: int, response: ApiResult<TokenPair>): (r: Step)
    ensures !Truthy(st.refreshToken) ==> r == Step(st, false)
    ensures Truthy(st.refreshToken) && response.Err? ==> r == Step(Cleared, false)
    ensures r.ok <==> Truthy(st.refreshToken) && response.Ok?
    ensures r.ok ==>
      && r.state.user == st.user
      && r.state.accessToken == Some(response.value.accessToken)
      && r.state.refreshToken == Some(response.value.refreshToken)
      && r.state.tokenExpiry == Some(now + response.value.expiresIn * 1000)
  {
    if !Truthy(st.refreshToken) then Step(st, false)
    else match response
      case Ok(pair) => Step(SetTokens(st, pair, now), true)
      case Err => Step(ClearTokens(st), false)
  }

  /** Whether `checkAuth` starts with a refresh. */
  predicate RefreshDue(st: AuthState, now: int) {
    IsAuthenticated(st) && ShouldRefreshToken(st, now)
  }

  /** `checkAuth`: refreshes first when authenticated and due (ignoring the
      refresh's verdict); then, when authenticated without a profile, answers
      with the profile fetch; otherwise answers `isAuthenticated`. */
  function CheckAuth(st: AuthState, now: int, refresh: ApiResult<TokenPair>, profile: ApiResult<Profile>)
    : (r: Step)
    ensures !RefreshDue(st, now) && !(IsAuthenticated(st) && st.user.None?) ==>
      r == Step(st, IsAuthenticated(st))
    ensures !RefreshDue(st, now) && IsAuthenticated(st) && st.user.None? ==>
      r == FetchUserProfile(st, profile)
    ensures RefreshDue(st, now) && !Truthy(st.refreshToken) ==>
      r == (if st.user.None? then FetchUserProfile(st, profile) else Step(st, true))
    ensures RefreshDue(st, now) && Truthy(st.refreshToken) && refresh.Err? ==> r == Step(Cleared, false)
    ensures RefreshDue(st, now) && Truthy(st.refreshToken) && refresh.Ok? ==>
      var renewed := SetTokens(st, refresh.value, now);
      r == (if refresh.value.accessToken == "" then Step(renewed, false)
            else if st.user.None? then FetchUserProfile(renewed, profile)
            else Step(renewed, true))
    ensures r.ok ==> IsAuthenticated(r.state) && r.state.user.Some?
    ensures !RefreshDue(st, now) ==> r.state.accessToken == st.accessToken
  {
    var st1 := if RefreshDue(st, now) then RefreshAccessToken(st, now, refresh).state else st;
    if IsAuthenticated(st1) && st1.user.None? then FetchUserProfile(st1, profile)
    else Step(st1, IsAuthenticated(st1))
  }

  /** `shouldRefreshToken` in whole milliseconds: less than 300000 ms left,
      which includes an expiry already passed. */
  lemma ShouldRefreshIff(st: AuthState, now: int)
    ensures ShouldRefreshToken(st, now) <==>
      st.tokenExpiry.Some? && st.tokenExpiry.value - now < RefreshMarginMs
  {
    if st.tokenExpiry.Some? {
      var d := st.tokenExpiry.value - now;
      assert d as real / 1000.0 < 300.0 <==> (d as real) < 300000.0;
    }
  }

  /** The two getters agree: a refresh is due exactly when an expiry is set
      and `tokenExpiresIn` is below 300 seconds. */
  lemma ShouldRefreshMatchesExpiresIn(st: AuthState, now: int)
    ensures ShouldRefreshToken(st, now) <==> st.tokenExpiry.Some? && TokenExpiresIn(st, now) < 300.0
  {
  }

  /** Tokens installed with `expiresIn` of at least 300 seconds are not due
      for refresh until the last 300 seconds before their expiry. */
  lemma FreshTokensNotDue(st: AuthState, pair: TokenPair, now: int, later: int)
    requires pair.expiresIn >= 300
    ensures ShouldRefreshToken(SetTokens(st, pair, now), later) <==>
      later > now + pair.expiresIn * 1000 - RefreshMarginMs
  {
    ShouldRefreshIff(SetTokens(st, pair, now), later);
  }

  /** After `logout` the user is signed out, nothing is due and no name is
      shown; logging out again sends nothing. */
  lemma LogoutSignsOut(st: AuthState, now: int)
    ensures var r := Logout(st).state;
      !IsAuthenticated(r) && !ShouldRefreshToken(r, now) && FullName(r).None?
      && TokenExpiresIn(r, now) == 0.0 && Logout(r).sent.None?
  {
  }

  /** A refresh attempt never leaves a half-updated state: afterwards the
      store is signed in with the new pair, untouched, or fully cleared. */
  lemma RefreshAllOrNothing(st: AuthState, now: int, response: ApiResult<TokenPair>)
    ensures var r := RefreshAccessToken(st, now, response);
      (r.ok && r.state == SetTokens(st, response.value, now))
      || (!r.ok && r.state == st && !Truthy(st.refreshToken))
      || (!r.ok && r.state == Cleared)
  {
  }

  /** The name shown for a profile carrying both names. */
  lemma FullNameOfNamedProfile(st: AuthState, first: string, last: string)
    requires st.user.Some? && st.user.value.firstName == Some(first) && st.user.value.lastName == Some(last)
    ensures FullName(st) == Some(first + " " + last)
    ensures |FullName(st).value| == |first| + |last| + 1
  {
  }
}

=== FILE: auth_store_as_written.dfy ===
/** The store's actions as the source has them. The API service module the
    store imports defines neither `setAuthTokens` nor `clearAuthTokens`, so
    `setTokens` and `clearTokens` both throw a `TypeError` once they have
    assigned the state. `AuthStore` models the store with both calls
    working; this module follows the exceptions through the actions that
    call them, and its lemmas compare the two. */
module AuthStoreAsWritten {
  import opened Wrappers
  import opened AuthStore

  /** How a synchronous action, or an asynchronous one without a value,
      ended: it returned, or it threw after leaving the state as carried. */
  datatype Settled = Returned(state: AuthState) | Thrown(state: AuthState)

  /** How a `Promise<boolean>` action settled: resolved to a boolean, or
      rejected, with the state it left behind. */
  datatype Async = Resolved(state: AuthState, ok: bool) | Rejected(state: AuthState)

  /** `setTokens` as written: the three fields are assigned and then the
      call to the missing `setAuthTokens` throws. */
  function SetTokensAsWritten(st: AuthState, pair: TokenPair, now: int): (r: Settled)
    ensures r.Thrown? && r.state == SetTokens(st, pair, now)
  {
    Thrown(SetTokens(st, pair, now))
  }

  /** `clearTokens` as written: the four fields are nulled and then the call
      to the missing `clearAuthTokens` throws. */
  function ClearTokensAsWritten(st: AuthState): (r: Settled)
    ensures r.Thrown?
    ensures !IsAuthenticated(r.state) && r.state.user.None? && r.state.refreshToken.None?
    ensures r.state == ClearTokens(st)
  {
    Thrown(ClearTokens(st))
  }

  /** `login` as written: the `TypeError` from `setTokens` is caught by the
      action's own `catch`, so the profile is never fetched and the action
      answers false, with the new tokens already installed. */
  function LoginAsWritten(st: AuthState, now: int, response: ApiResult<TokenPair>, profile: ApiResult<Profile>)
    : (r: Step)
    ensures !r.ok
    ensures response.Err? ==> r.state == st
    ensures response.Ok? ==>
      && r.state.accessToken == Some(response.value.accessToken)
      && r.state.refreshToken == Some(response.value.refreshToken)
      && r.state.user == st.user
  {
    match response
    case Err => Step(st, false)
    case Ok(pair) =>
      match SetTokensAsWritten(st, pair, now)
      case Thrown(st1) => Step(st1, false)
      case Returned(st1) => Step(FetchUserProfile(st1, profile).state, true)
  }

  /** As written, `login` never reports success, even when the server
      accepted the credentials and the store now holds a session; with a
      working token persistence (`Login`) it reports exactly the server's
      verdict. */
  lemma LoginAsWrittenReportsFailure(st: AuthState, now: int, pair: TokenPair, profile: ApiResult<Profile>)
    requires pair.accessToken != ""
    ensures var r := LoginAsWritten(st, now, Ok(pair), profile);
      !r.ok && IsAuthenticated(r.state) && r.state.user == st.user
    ensures Login(st, now, Ok(pair), profile).ok
  {
  }

  /** `logout` as written: the server call is made as in `Logout`, and then
      the `clearTokens` of the `finally` block clears the state and throws,
      so the returned promise rejects. */
  function LogoutAsWritten(st: AuthState): (r: Settled)
    ensures r.Thrown?
    ensures r.state == Cleared
  {
    ClearTokensAsWritten(st)
  }

  /** `refreshAccessToken` as written. Without a refresh token it resolves
      false as before. Otherwise the `try` block throws either way: from the
      failed call, or from `setTokens` after a successful one. The `catch`
      block's `clearTokens` then clears the state and throws in turn, so
      the promise rejects. */
  function RefreshAccessTokenAsWritten(st: AuthState, now: int, response: ApiResult<TokenPair>): (r: Async)
    ensures !Truthy(st.refreshToken) ==> r == Resolved(st, false)
    ensures Truthy(st.refreshToken) ==> r.Rejected? && r.state == Cleared
  {
    if !Truthy(st.refreshToken) then Resolved(st, false)
    else
      var attempt := match response
        case Ok(pair) => SetTokensAsWritten(st, pair, now)
        case Err => Thrown(st);
      match attempt
      case Returned(st1) => Resolved(st1, true)
      case Thrown(st1) =>
        match ClearTokensAsWritten(st1)
        case Returned(st2) => Resolved(st2, false)
        case Thrown(st2) => Rejected(st2)
  }

  /** As written, a refresh the server accepts signs the user out and
      rejects; with working persistence (`RefreshAccessToken`) the same
      answer installs the new pair and resolves true. */
  lemma RefreshAsWrittenSignsOut(st: AuthState, now: int, pair: TokenPair)
    requires Truthy(st.refreshToken)
    ensures RefreshAccessTokenAsWritten(st, now, Ok(pair)) == Rejected(Cleared)
    ensures RefreshAccessToken(st, now, Ok(pair)) == Step(SetTokens(st, pair, now), true)
  {
  }

  /** `checkAuth` as written: the awaited refresh, when due, rejects as soon
      as a refresh token is held, and `checkAuth` rejects with it; otherwise
      it continues exactly as `CheckAuth`. */
  function CheckAuthAsWritten(st: AuthState, now: int, refresh: ApiResult<TokenPair>, profile: ApiResult<Profile>)
    : (r: Async)
    ensures RefreshDue(st, now) && Truthy(st.refreshToken) ==> r == Rejected(Cleared)
    ensures !(RefreshDue(st, now) && Truthy(st.refreshToken)) ==>
      r == Resolved(CheckAuth(st, now, refresh, profile).state, CheckAuth(st, now, refresh, profile).ok)
  {
    var first := if RefreshDue(st, now) then RefreshAccessTokenAsWritten(st, now, refresh) else Resolved(st, false);
    match first
    case Rejected(st1) => Rejected(st1)
    case Resolved(st1, _) =>
      if IsAuthenticated(st1) && st1.user.None? then
        var fetched := FetchUserProfile(st1, profile);
        Resolved(fetched.state, fetched.ok)
      else Resolved(st1, IsAuthenticated(st1))
  }

  /** A session that has entered its last five minutes never passes
      `checkAuth` as written: it is signed out and the call rejects, even
      when the server would renew it and a profile is held or can be
      fetched; `CheckAuth` answers true for the same session, holding the
      renewed tokens. */
  lemma DueCheckAuthRejects(st: AuthState, now: int, pair: TokenPair, profile: ApiResult<Profile>)
    requires RefreshDue(st, now) && Truthy(st.refreshToken)
    requires st.user.Some? || profile.Ok?
    requires pair.accessToken != ""
    ensures CheckAuthAsWritten(st, now, Ok(pair), profile) == Rejected(Cleared)
    ensures var r := CheckAuth(st, now, Ok(pair), profile);
      r.ok && r.state.accessToken == Some(pair.accessToken) && r.state.refreshToken == Some(pair.refreshToken)
  {
  }
}

=== FILE: hex.dfy ===
/** `bin2hex`: the lowercase hexadecimal text of a byte string, used to turn
    the 32 random bytes of a refresh token into its 64-character value. */
module Hex {

  /** One byte of `random_bytes` output. */
  type Byte = x: int | 0 <= x < 256

  /** A character `bin2hex` can produce. */
  predicate IsHexDigit(c: char) {
    '0' <= c <= '9' || 'a' <= c <= 'f'
  }

  /** The lowercase hexadecimal digit for a nibble. */
  function HexDigit(n: nat): (c: char)
    requires n < 16
    ensures IsHexDigit(c)
  {
    if n < 10 then ('0' as int + n) as char else ('a' as int + n - 10) as char
  }

  /** The nibble a hexadecimal digit stands for. */
  function DigitValue(c: char): (n: nat)
    requires IsHexDigit(c)
    ensures n < 16 && HexDigit(n) == c
  {
    if c <= '9' then c as int - '0' as int else c as int - 'a' as int + 10
  }

  /** `bin2hex($bytes)`: two digits per byte, high nibble first. */
  function BinToHex(bytes: seq<Byte>): (h: string)
    ensures |h| == 2 * |bytes|
    ensures forall i :: 0 <= i < |h| ==> IsHexDigit(h[i])
    decreases |bytes|
  {
    if |bytes| == 0 then ""
    else [HexDigit(bytes[0] / 16), HexDigit(bytes[0] % 16)] + BinToHex(bytes[1..])
  }

  /** `hex2bin`, the decoder for `BinToHex`. */
  function HexToBin(h: string): (bytes: seq<Byte>)
    requires |h| % 2 == 0
    requires forall i :: 0 <= i < |h| ==> IsHexDigit(h[i])
    ensures 2 * |bytes| == |h|
    decreases |h|
  {
    if |h| == 0 then []
    else [DigitValue(h[0]) * 16 + DigitValue(h[1])] + HexToBin(h[2..])
  }

  /** Decoding the hexadecimal text gives back the bytes. */
  lemma {:induction false} HexRoundTrip(bytes: seq<Byte>)
    ensures HexToBin(BinToHex(bytes)) == bytes
    decreases |bytes|
  {
    if |bytes| > 0 {
      var h := BinToHex(bytes);
      var hi, lo := bytes[0] / 16, bytes[0] % 16;
      assert h[0] == HexDigit(hi) && h[1] == HexDigit(lo);
      assert DigitValue(h[0]) == hi && DigitValue(h[1]) == lo;
      assert h[2..] == BinToHex(bytes[1..]);
      HexRoundTrip(bytes[1..]);
      assert bytes == [bytes[0]] + bytes[1..];
    }
  }

  /** Distinct byte strings have distinct hexadecimal texts. */
  lemma BinToHexInjective(a: seq<Byte>, b: seq<Byte>)
    requires BinToHex(a) == BinToHex(b)
    ensures a == b
  {
    HexRoundTrip(a);
    HexRoundTrip(b);
  }
}

=== FILE: http.dfy ===
/** The one piece of HTTP header handling shared by the listener and the
    logout endpoint: both take the `Authorization` header and delete every
    occurrence of `"Bearer "` with `str_replace`. */
module Http {
  import opened Php

  /** The authentication scheme prefix both call sites delete. */
  const BearerPrefix: string := "Bearer "

  /** `str_replace('Bearer ', '', $header)`. */
  function StripBearer(header: string): (r: string)
    ensures |r| <= |header|
  {
    RemoveAll(BearerPrefix, header)
  }

  /** For a well-formed header `"Bearer " + t`, where `t` itself does not
      contain `"Bearer "`, stripping yields exactly `t`. */
  lemma StripStandardHeader(t: string)
    requires !Contains(BearerPrefix, t)
    ensures StripBearer(BearerPrefix + t) == t
  {
    RemoveAllLeading(BearerPrefix, t);
  }

  /** A header without the prefix passes through unchanged. */
  lemma StripBearerUnchanged(header: string)
    requires !Contains(BearerPrefix, header)
    ensures StripBearer(header) == header
  {
    RemoveAllAbsent(BearerPrefix, header);
  }

  /** Every occurrence counts, not just a leading one: the first occurrence
      is deleted wherever it stands and the text after it is stripped in
      turn. Together with `StripBearerUnchanged` this fixes the result for
      every header. */
  lemma StripBearerLeftmost(a: string, b: string)
    requires forall i :: 0 <= i < |a| ==> !OccursAt(BearerPrefix, a + BearerPrefix + b, i)
    ensures StripBearer(a + BearerPrefix + b) == a + StripBearer(b)
  {
    RemoveAllLeftmost(BearerPrefix, a, b);
  }
}

=== FILE: jwt_token_authenticator.dfy ===
/** The authenticator that puts the blacklist in front of the JWT library's
    own `doAuthenticate`. The token extractor's answer and the library's
    verdict are inputs: `extracted` is `None` when the extractor returns
    `false`, and `parent` is what the library's `doAuthenticate` would
    return (a passport, or the exception it would throw). */
module JwtTokenAuthenticator {
  import opened Wrappers
  import opened TokenBlacklist

  /** Why authentication failed. */
  datatype AuthError<+E> =
    | NoTokenFound          // AuthenticationException('No JWT token found')
    | TokenBlacklisted      // InvalidTokenException('JWT token is blacklisted')
    | ParentRejected(e: E)  // whatever the library's authenticator threw

  /** The exception message of each failure raised here. */
  function Message<E>(err: AuthError<E>): string
    requires !err.ParentRejected?
  {
    match err
    case NoTokenFound => "No JWT token found"
    case TokenBlacklisted => "JWT token is blacklisted"
  }

  /** `doAuthenticate`: no token fails first, a blacklisted token fails
      next, and only then does the library's verdict decide. */
  function DoAuthenticate<P, E>(
    extracted: Option<string>, c: Cache, digest: string -> string, now: int, parent: Result<P, E>)
    : (r: Result<P, AuthError<E>>)
    ensures extracted.None? ==> r == Failure(NoTokenFound)
    ensures extracted.Some? && IsBlacklisted(c, digest, extracted.value, now) ==>
      r == Failure(TokenBlacklisted)
    ensures extracted.Some? && !IsBlacklisted(c, digest, extracted.value, now) ==>
      (r.Success? <==> parent.Success?) &&
      (r.Success? ==> r.value == parent.value) &&
      (r.Failure? ==> r.error == ParentRejected(parent.error))
    ensures r.Failure? && !r.error.ParentRejected? ==>
      Message(r.error) == (if extracted.None? then "No JWT token found" else "JWT token is blacklisted")
  {
    match extracted
    case None => Failure(NoTokenFound)
    case Some(token) =>
      if IsBlacklisted(c, digest, token, now) then Failure(TokenBlacklisted)
      else match parent
        case Success(passport) => Success(passport)
        case Failure(e) => Failure(ParentRejected(e))
  }

  /** The blacklist is consulted before the library: for a blacklisted token
      the outcome is the same whatever the library would have said, so no
      signature check can let it through. */
  lemma BlacklistGateDominates<P, E>(
    token: string, c: Cache, digest: string -> string, now: int, p1: Result<P, E>, p2: Result<P, E>)
    requires IsBlacklisted(c, digest, token, now)
    ensures DoAuthenticate(Some(token), c, digest, now, p1) == DoAuthenticate(Some(token), c, digest, now, p2)
    ensures DoAuthenticate(Some(token), c, digest, now, p1).Failure?
  {
  }

  /** Authentication succeeds exactly when a token was found, it is not
      blacklisted, and the library accepts it. */
  lemma AuthenticatedIff<P, E>(
    extracted: Option<string>, c: Cache, digest: string -> string, now: int, parent: Result<P, E>)
    ensures DoAuthenticate(extracted, c, digest, now, parent).Success? <==>
      extracted.Some? && !IsBlacklisted(c, digest, extracted.value, now) && parent.Success?
  {
  }
}

=== FILE: jwt_token_listener.dfy ===
/** The listener on the JWT library's "token decoded" event, which marks the
    event invalid when the request's token is blacklisted. */
module JwtTokenListener {
  import opened Wrappers
  import opened Php
  import opened TokenBlacklist
  import opened Http

  /** The events the JWT library dispatches. */
  datatype JwtEvent =
    | JwtCreated | JwtEncoded | JwtDecoded | JwtAuthenticated
    | JwtInvalid | JwtNotFound | JwtExpired
    | AuthenticationSuccess | AuthenticationFailure

  /** `getSubscribedEvents`: event -> handler method name. */
  function SubscribedEvents(): (m: map<JwtEvent, string>)
    ensures m.Keys == {JwtDecoded}
    ensures m[JwtDecoded] == "onJWTDecoded"
  {
    map[JwtDecoded := "onJWTDecoded"]
  }

  /** The decoded-token event: its payload and whether it is still valid. */
  datatype DecodedEvent = DecodedEvent(payload: Value, isValid: bool)

  /** The current request, reduced to its `Authorization` header. */
  datatype Request = Request(authorization: Option<string>)

  /** The token the listener checks: the header (or `''`) with every
      `"Bearer "` removed. */
  function CheckedToken(req: Request): string {
    StripBearer(req.authorization.GetOr(""))
  }

  /** `onJWTDecoded`: without a current request nothing happens; otherwise
      the event is marked invalid iff the checked token is blacklisted. */
  function OnJwtDecoded(
    current: Option<Request>, event: DecodedEvent, c: Cache, digest: string -> string, now: int)
    : (e': DecodedEvent)
    ensures current.None? ==> e' == event
    ensures e'.payload == event.payload
    ensures current.Some? ==>
      (e'.isValid <==> event.isValid && !IsBlacklisted(c, digest, CheckedToken(current.value), now))
  {
    match current
    case None => event
    case Some(req) =>
      if IsBlacklisted(c, digest, CheckedToken(req), now) then event.(isValid := false)
      else event
  }

  /** For a well-formed header `"Bearer " + t`, where `t` itself does not
      contain `"Bearer "`, the listener checks exactly `t`. */
  lemma StandardHeaderChecksToken(t: string)
    requires !Contains(BearerPrefix, t)
    ensures CheckedToken(Request(Some(BearerPrefix + t))) == t
  {
    StripStandardHeader(t);
  }
}

=== FILE: php.dfy ===
/** The slice of PHP's value semantics the API relies on: the arrays that
    `json_decode($content, true)` produces, `empty`, `isset`, `??`, the
    coercion of scalars into typed parameters, `explode`, `str_replace`
    with an empty replacement, and `strtolower`. */
module Php {
  import opened Wrappers

  /** A value produced by `json_decode($content, true)`. JSON objects and
      lists both become PHP arrays; a list's keys are the decimal strings of
      its indices, which is how PHP normalises them for lookups by string.
      `Null` also stands for a body that does not decode. */
  datatype Value =
    | Null
    | Bool(b: bool)
    | Int(i: int)
    | Str(s: string)
    | Arr(entries: map<string, Value>)

  /** PHP's `empty($v)`: null, false, 0, "", "0" and the empty array. */
  predicate Empty(v: Value) {
    match v
    case Null => true
    case Bool(b) => !b
    case Int(i) => i == 0
    case Str(s) => s == "" || s == "0"
    case Arr(m) => |m| == 0
  }

  /** `isset($data[$key])`; false when `$data` is not an array. */
  predicate IsSet(data: Value, key: string) {
    data.Arr? && key in data.entries && !data.entries[key].Null?
  }

  /** `$data[$key] ?? $default`. */
  function Coalesce(data: Value, key: string, default: Value): Value {
    if IsSet(data, key) then data.entries[key] else default
  }

  /** The decimal representation PHP gives a non-negative integer. */
  function NatToString(n: nat): (r: string)
    ensures |r| >= 1
    decreases n
  {
    if n < 10 then ["0123456789"[n]]
    else NatToString(n / 10) + ["0123456789"[n % 10]]
  }

  /** The decimal representation PHP gives an integer. */
  function IntToString(i: int): string {
    if i < 0 then "-" + NatToString(-i) else NatToString(i)
  }

  /** The value a `string` parameter of a user-defined function receives in
      coercive typing mode; `None` is the `TypeError` PHP throws (for null and
      arrays). */
  function Stringify(v: Value): Option<string> {
    match v
    case Null => None
    case Bool(b) => Some(if b then "1" else "")
    case Int(i) => Some(IntToString(i))
    case Str(s) => Some(s)
    case Arr(_) => None
  }

  /** The value an `int` parameter receives in coercive typing mode; `None`
      is the `TypeError`. Numeric strings, which PHP would also convert, are
      treated as a type error here. */
  function IntParam(v: Value): Option<int> {
    match v
    case Int(i) => Some(i)
    case Bool(b) => Some(if b then 1 else 0)
    case _ => None
  }

  /** Number of occurrences of `c` in `s`. */
  function Occurrences(c: char, s: string): nat
    decreases |s|
  {
    if |s| == 0 then 0
    else (if s[0] == c then 1 else 0) + Occurrences(c, s[1..])
  }

  /** `explode($sep, $s)` for a one-character separator: the pieces of `s`
      between separators, always at least one (possibly empty) piece. */
  function Explode(sep: char, s: string): (parts: seq<string>)
    ensures |parts| >= 1
    decreases |s|
  {
    if |s| == 0 then [""]
    else
      var rest := Explode(sep, s[1..]);
      if s[0] == sep then [""] + rest
      else [[s[0]] + rest[0]] + rest[1..]
  }

  /** `implode($sep, $parts)`, the inverse of `Explode`. */
  function Implode(sep: char, parts: seq<string>): string
    requires |parts| >= 1
    decreases |parts|
  {
    if |parts| == 1 then parts[0]
    else parts[0] + [sep] + Implode(sep, parts[1..])
  }

  /** Gluing the pieces back together gives the original string. */
  lemma {:induction false} ImplodeExplode(sep: char, s: string)
    ensures Implode(sep, Explode(sep, s)) == s
    decreases |s|
  {
    if |s| > 0 {
      var rest := Explode(sep, s[1..]);
      ImplodeExplode(sep, s[1..]);
      if s[0] == sep {
        assert ([""] + rest)[1..] == rest;
      } else if |rest| > 1 {
        var parts := [[s[0]] + rest[0]] + rest[1..];
        assert parts[1..] == rest[1..];
        assert Implode(sep, rest) == rest[0] + [sep] + Implode(sep, rest[1..]);
        assert s == [s[0]] + s[1..];
      } else {
        assert s == [s[0]] + s[1..];
      }
    }
  }

  /** No piece contains the separator. */
  lemma {:induction false} ExplodePiecesHaveNoSeparator(sep: char, s: string)
    ensures forall i :: 0 <= i < |Explode(sep, s)| ==> sep !in Explode(sep, s)[i]
    decreases |s|
  {
    if |s| > 0 {
      ExplodePiecesHaveNoSeparator(sep, s[1..]);
      var rest := Explode(sep, s[1..]);
      if s[0] != sep {
        assert sep !in rest[0];
        assert sep !in [s[0]] + rest[0];
      }
    }
  }

  /** There is one more piece than there are separators. */
  lemma {:induction false} ExplodeCount(sep: char, s: string)
    ensures |Explode(sep, s)| == Occurrences(sep, s) + 1
    decreases |s|
  {
    if |s| > 0 {
      ExplodeCount(sep, s[1..]);
    }
  }

  /** A separator-free prefix joins the first piece of what follows. */
  lemma {:induction false} ExplodeSeparatorFreePrefix(sep: char, a: string, b: string)
    requires sep !in a
    ensures Explode(sep, a + b) == [a + Explode(sep, b)[0]] + Explode(sep, b)[1..]
    decreases |a|
  {
    if |a| > 0 {
      assert (a + b)[0] == a[0];
      assert (a + b)[1..] == a[1..] + b;
      ExplodeSeparatorFreePrefix(sep, a[1..], b);
      var rest := Explode(sep, a[1..] + b);
      assert a[0] != sep;
      assert Explode(sep, a + b) == [[a[0]] + rest[0]] + rest[1..];
      assert rest[0] == a[1..] + Explode(sep, b)[0];
      assert rest[1..] == Explode(sep, b)[1..];
      assert [a[0]] + (a[1..] + Explode(sep, b)[0]) == a + Explode(sep, b)[0];
    } else {
      assert a + b == b;
      assert a + Explode(sep, b)[0] == Explode(sep, b)[0];
      assert Explode(sep, b) == [Explode(sep, b)[0]] + Explode(sep, b)[1..];
    }
  }

  /** Splitting separator-free pieces after gluing them gives them back. */
  lemma {:induction false} ExplodeImplode(sep: char, parts: seq<string>)
    requires |parts| >= 1
    requires forall i :: 0 <= i < |parts| ==> sep !in parts[i]
    ensures Explode(sep, Implode(sep, parts)) == parts
    decreases |parts|
  {
    if |parts| == 1 {
      ExplodeSeparatorFreePrefix(sep, parts[0], "");
      assert parts[0] + "" == parts[0];
    } else {
      var tail := Implode(sep, parts[1..]);
      ExplodeImplode(sep, parts[1..]);
      assert parts[0] + [sep] + tail == parts[0] + ([sep] + tail);
      ExplodeSeparatorFreePrefix(sep, parts[0], [sep] + tail);
      assert ([sep] + tail)[1..] == tail;
      assert Explode(sep, [sep] + tail) == [""] + parts[1..];
      assert parts[0] + "" == parts[0];
      assert parts == [parts[0]] + parts[1..];
    }
  }

  /** `pat` occurs in `s` starting at index `i`. */
  predicate OccursAt(pat: string, s: string, i: int) {
    0 <= i && i + |pat| <= |s| && s[i..i + |pat|] == pat
  }

  /** `pat` occurs somewhere in `s`. */
  predicate Contains(pat: string, s: string) {
    exists i | 0 <= i <= |s| :: OccursAt(pat, s, i)
  }

  /** `str_replace($pat, '', $s)`: every occurrence of `pat`, found left to
      right without overlap, is removed. */
  function RemoveAll(pat: string, s: string): (r: string)
    requires |pat| > 0
    ensures |r| <= |s|
    decreases |s|
  {
    if |s| < |pat| then s
    else if s[..|pat|] == pat then RemoveAll(pat, s[|pat|..])
    else [s[0]] + RemoveAll(pat, s[1..])
  }

  /** Removing a pattern that does not occur leaves the string unchanged. */
  lemma {:induction false} RemoveAllAbsent(pat: string, s: string)
    requires |pat| > 0
    requires !Contains(pat, s)
    ensures RemoveAll(pat, s) == s
    decreases |s|
  {
    if |s| >= |pat| {
      assert !OccursAt(pat, s, 0);
      forall i | OccursAt(pat, s[1..], i)
        ensures OccursAt(pat, s, i + 1)
      {
        assert s[1..][i..i + |pat|] == s[i + 1..i + 1 + |pat|];
      }
      RemoveAllAbsent(pat, s[1..]);
      assert s == [s[0]] + s[1..];
    }
  }

  /** A leading occurrence is removed and the rest is processed as if it
      stood alone; with no further occurrence, exactly the rest remains. */
  lemma {:induction false} RemoveAllLeading(pat: string, t: string)
    requires |pat| > 0
    requires !Contains(pat, t)
    ensures RemoveAll(pat, pat + t) == t
  {
    assert (pat + t)[..|pat|] == pat;
    assert (pat + t)[|pat|..] == t;
    RemoveAllAbsent(pat, t);
  }

  /** Without an occurrence at the front, the first character is kept and
      the scan moves on by one. */
  lemma RemoveAllSkip(pat: string, s: string)
    requires |pat| > 0 && |s| >= |pat|
    requires !OccursAt(pat, s, 0)
    ensures RemoveAll(pat, s) == [s[0]] + RemoveAll(pat, s[1..])
  {
  }

  /** The scan removes the leftmost occurrence and resumes right after it:
      when `pat` first occurs in `a + pat + b` at `|a|`, the text before it
      is kept and the rest is processed on its own. With `RemoveAllAbsent`
      this determines `RemoveAll` on every string. */
  lemma {:induction false} RemoveAllLeftmost(pat: string, a: string, b: string)
    requires |pat| > 0
    requires forall i :: 0 <= i < |a| ==> !OccursAt(pat, a + pat + b, i)
    ensures RemoveAll(pat, a + pat + b) == a + RemoveAll(pat, b)
    decreases |a|
  {
    var s := a + pat + b;
    if a == [] {
      assert s == pat + b;
      assert s[..|pat|] == pat && s[|pat|..] == b;
    } else {
      var t := a[1..] + pat + b;
      assert s[1..] == t;
      forall i | 0 <= i < |a[1..]|
        ensures !OccursAt(pat, t, i)
      {
        assert !OccursAt(pat, s, i + 1);
        assert t[i..i + |pat|] == s[i + 1..i + 1 + |pat|];
      }
      RemoveAllLeftmost(pat, a[1..], b);
      RemoveAllSkip(pat, s);
      assert a == [a[0]] + a[1..];
    }
  }

  /** `strtolower` for one character (ASCII only, as in PHP 8.2). */
  function LowerChar(c: char): char {
    if 'A' <= c <= 'Z' then (c as int + 32) as char else c
  }

  /** `strtolower`. */
  function ToLower(s: string): (r: string)
    ensures |r| == |s|
    ensures forall i :: 0 <= i < |s| ==> r[i] == LowerChar(s[i])
  {
    seq(|s|, i requires 0 <= i < |s| => LowerChar(s[i]))
  }

  /** Lowercasing twice is lowercasing once. */
  lemma ToLowerIdempotent(s: string)
    ensures ToLower(ToLower(s)) == ToLower(s)
  {
  }
}

=== FILE: refresh_token_repository.dfy ===
/** The refresh-token table and its queries, as an immutable map from token
    value to record with an explicit clock `now` (epoch seconds). */
module RefreshTokenRepository {
  import opened Wrappers
  import opened Users

  /** What the table stores for one token value. */
  datatype TokenData = TokenData(user: User, expiresAt: int)

  /** A `RefreshToken` entity as the repository hands it out. */
  datatype RefreshToken = RefreshToken(token: string, user: User, expiresAt: int)

  /** The table, keyed by the (unique) token value. */
  type Store = map<string, TokenData>

  /** The entity stored under `t`. */
  function Entity(s: Store, t: string): RefreshToken
    requires t in s
  {
    RefreshToken(t, s[t].user, s[t].expiresAt)
  }

  /** `save`: the entity is stored under its token value; nothing else changes. */
  function Save(s: Store, rec: RefreshToken): (s': Store)
    ensures rec.token in s' && Entity(s', rec.token) == rec
    ensures forall t :: t != rec.token ==> (t in s' <==> t in s)
    ensures forall t :: t != rec.token && t in s ==> s'[t] == s[t]
  {
    s[rec.token := TokenData(rec.user, rec.expiresAt)]
  }

  /** `remove`: the entity's row is deleted; nothing else changes. */
  function Remove(s: Store, rec: RefreshToken): (s': Store)
    ensures rec.token !in s'
    ensures forall t :: t != rec.token ==> (t in s' <==> t in s)
    ensures forall t :: t in s' ==> s'[t] == s[t]
  {
    s - {rec.token}
  }

  /** `findOneBy(['token' => $t])`: the row with that value, expired or not. */
  function FindOneByToken(s: Store, t: string): (r: Option<RefreshToken>)
    ensures r.Some? <==> t in s
    ensures r.Some? ==> r.value.token == t && Entity(s, t) == r.value
  {
    if t in s then Some(Entity(s, t)) else None
  }

  /** `findValidToken`: the row with value `t` whose expiry is strictly
      after `now`. */
  function FindValidToken(s: Store, t: string, now: int): (r: Option<RefreshToken>)
    ensures r.Some? <==> t in s && now < s[t].expiresAt
    ensures r.Some? ==> r.value == Entity(s, t)
  {
    if t in s && s[t].expiresAt > now then Some(Entity(s, t)) else None
  }

  /** `findBy(['user' => $user])`: the values of every row owned by the user
      (ownership is the user's identifier, as in the foreign key). */
  function FindByUser(s: Store, user: User): (tokens: set<string>)
    ensures forall t :: t in tokens <==> t in s && s[t].user.id == user.id
  {
    set t | t in s && s[t].user.id == user.id
  }

  /** `findValidTokensByUser`: the user's rows that have not expired. */
  function FindValidTokensByUser(s: Store, user: User, now: int): (r: set<RefreshToken>)
    ensures forall rec :: rec in r <==>
      rec.token in s && Entity(s, rec.token) == rec && rec.user.id == user.id && now < rec.expiresAt
  {
    set t | t in s && s[t].user.id == user.id && s[t].expiresAt > now :: Entity(s, t)
  }

  /** The values of the rows the sweep deletes: expiry strictly before `now`. */
  function ExpiredTokens(s: Store, now: int): set<string> {
    set t | t in s && s[t].expiresAt < now
  }

  /** The table after a sweep and the number of rows the DELETE reports. */
  datatype Sweep = Sweep(kept: Store, removed: nat)

  /** `removeExpiredTokens`: deletes the rows whose expiry is strictly before
      `now` and reports how many went; every other row is untouched. */
  function RemoveExpiredTokens(s: Store, now: int): (r: Sweep)
    ensures forall t :: t in r.kept <==> t in s && now <= s[t].expiresAt
    ensures forall t :: t in r.kept ==> r.kept[t] == s[t]
    ensures r.removed == |s| - |r.kept|
    ensures r.removed == |ExpiredTokens(s, now)|
  {
    var expired := ExpiredTokens(s, now);
    var kept := map t | t in s && s[t].expiresAt >= now :: s[t];
    assert kept.Keys == s.Keys - expired;
    assert |s.Keys - expired| == |s.Keys| - |expired|;
    Sweep(kept, |expired|)
  }

  /** A row expiring exactly at `now` is neither valid nor swept. */
  lemma ExpiryBoundary(s: Store, t: string, now: int)
    requires t in s && s[t].expiresAt == now
    ensures FindValidToken(s, t, now) == None
    ensures t in RemoveExpiredTokens(s, now).kept
  {
  }

  /** A second sweep at the same instant removes nothing, and after a sweep
      every remaining row expires at or after `now`. */
  lemma SweepIdempotent(s: Store, now: int)
    ensures RemoveExpiredTokens(RemoveExpiredTokens(s, now).kept, now).removed == 0
    ensures RemoveExpiredTokens(RemoveExpiredTokens(s, now).kept, now).kept
         == RemoveExpiredTokens(s, now).kept
    ensures forall t :: t in RemoveExpiredTokens(s, now).kept ==>
      now <= RemoveExpiredTokens(s, now).kept[t].expiresAt
  {
    var once := RemoveExpiredTokens(s, now).kept;
    assert ExpiredTokens(once, now) == {};
  }

  /** The sweep never deletes a token that `findValidToken` would return. */
  lemma SweepKeepsValidTokens(s: Store, t: string, now: int)
    requires FindValidToken(s, t, now).Some?
    ensures FindValidToken(RemoveExpiredTokens(s, now).kept, t, now) == FindValidToken(s, t, now)
  {
  }

  /** Once a token is no longer valid it stays invalid as the clock advances. */
  lemma InvalidStaysInvalid(s: Store, t: string, now: int, later: int)
    requires now <= later
    requires FindValidToken(s, t, now).None?
    ensures FindValidToken(s, t, later).None?
  {
  }

  /** The two finders agree: a row is among the user's valid tokens exactly
      when looking its value up as a valid token finds it and it belongs to
      the user; so every listed token is also owned per `FindByUser`. */
  lemma FindValidTokensByUserIff(s: Store, user: User, now: int, rec: RefreshToken)
    ensures rec in FindValidTokensByUser(s, user, now) <==>
      FindValidToken(s, rec.token, now) == Some(rec) && rec.user.id == user.id
    ensures rec in FindValidTokensByUser(s, user, now) ==> rec.token in FindByUser(s, user)
  {
  }
}

=== FILE: refresh_token_service.dfy ===
/** Issuing, validating and revoking refresh tokens on top of the
    repository. `random_bytes(32)` is an input: the caller supplies the 32
    bytes and promises they do not collide with a stored value (256 bits of
    entropy; the code itself does not retry). */
module RefreshTokenService {
  import opened Wrappers
  import opened Users
  import opened Hex
  import opened RefreshTokenRepository

  /** Refresh tokens live 90 days. */
  const RefreshTokenTtl: int := 90 * 24 * 60 * 60

  /** The message `validateRefreshToken` throws with. */
  const InvalidRefreshTokenMessage: string := "Invalid or expired refresh token"

  /** The table after issuing and the issued entity. */
  datatype Created = Created(store: Store, token: RefreshToken)

  /** `createRefreshToken`: stores exactly one new row for `user`, valued
      `bin2hex` of the random bytes, expiring 90 days after `now`. */
  function CreateRefreshToken(s: Store, user: User, now: int, randomBytes: seq<Byte>): (r: Created)
    requires |randomBytes| == 32
    requires BinToHex(randomBytes) !in s
    ensures r.token.token == BinToHex(randomBytes)
    ensures r.token.user == user && r.token.expiresAt == now + 7776000
    ensures |r.token.token| == 64
    ensures forall i :: 0 <= i < |r.token.token| ==> IsHexDigit(r.token.token[i])
    ensures r.token.token !in s
    ensures r.store.Keys == s.Keys + {r.token.token}
    ensures Entity(r.store, r.token.token) == r.token
    ensures forall t :: t in s ==> r.store[t] == s[t]
  {
    var rec := RefreshToken(BinToHex(randomBytes), user, now + RefreshTokenTtl);
    Created(Save(s, rec), rec)
  }

  /** `validateRefreshToken`: the row iff `findValidToken` finds one, else
      the failure message; the table is never changed. */
  function ValidateRefreshToken(s: Store, t: string, now: int): (r: Result<RefreshToken, string>)
    ensures r.Success? <==> t in s && now < s[t].expiresAt
    ensures r.Success? ==> r.value == Entity(s, t)
    ensures r.Failure? ==> r.error == "Invalid or expired refresh token"
  {
    match FindValidToken(s, t, now)
    case Some(rec) => Success(rec)
    case None => Failure(InvalidRefreshTokenMessage)
  }

  /** `revokeRefreshToken`: deletes the row with that value, expired or not;
      a value with no row is a no-op. */
  function RevokeRefreshToken(s: Store, t: string): (r: Store)
    ensures t !in r
    ensures forall u :: u != t ==> (u in r <==> u in s)
    ensures forall u :: u in r ==> r[u] == s[u]
    ensures t !in s ==> r == s
  {
    match FindOneByToken(s, t)
    case Some(rec) => Remove(s, rec)
    case None => s
  }

  /** `revokeAllUserRefreshTokens`: removes each row `findBy` returns for the
      user, one at a time; every other user's rows are untouched. */
  method RevokeAllUserRefreshTokens(s: Store, user: User) returns (r: Store)
    ensures forall t :: t in r <==> t in s && s[t].user.id != user.id
    ensures forall t :: t in r ==> r[t] == s[t]
    ensures r == RevokeAllResult(s, user)
  {
    var owned := FindByUser(s, user);
    r := s;
    var pending := owned;
    while pending != {}
      invariant pending <= owned
      invariant forall t :: t in r <==> t in s && (t in pending || s[t].user.id != user.id)
      invariant forall t :: t in r ==> r[t] == s[t]
      decreases pending
    {
      var t :| t in pending;
      r := Remove(r, Entity(s, t));
      pending := pending - {t};
    }
  }

  /** `cleanupExpiredTokens`: the repository sweep, whose count is the number
      of rows that had expired strictly before `now`. */
  function CleanupExpiredTokens(s: Store, now: int): (r: Sweep)
    ensures r.removed == |ExpiredTokens(s, now)|
    ensures forall t :: t in r.kept <==> t in s && now <= s[t].expiresAt
    ensures forall t :: t in r.kept ==> r.kept[t] == s[t]
  {
    RemoveExpiredTokens(s, now)
  }

  /** A freshly issued token validates exactly until its 90 days are up. */
  lemma CreatedTokenValidFor90Days(s: Store, user: User, now: int, randomBytes: seq<Byte>, later: int)
    requires |randomBytes| == 32
    requires BinToHex(randomBytes) !in s
    ensures var c := CreateRefreshToken(s, user, now, randomBytes);
      ValidateRefreshToken(c.store, c.token.token, later).Success? <==> later < now + 7776000
  {
  }

  /** Issuing a token leaves the validity of every other token unchanged. */
  lemma CreateKeepsOtherTokens(s: Store, user: User, now: int, randomBytes: seq<Byte>, t: string, later: int)
    requires |randomBytes| == 32
    requires BinToHex(randomBytes) !in s
    requires t in s
    ensures ValidateRefreshToken(CreateRefreshToken(s, user, now, randomBytes).store, t, later)
         == ValidateRefreshToken(s, t, later)
  {
  }

  /** The token string determines the random draw it was made from: two
      different draws never issue the same token, whatever the stores. */
  lemma DistinctDrawsDistinctTokens(
    s1: Store, u1: User, now1: int, a: seq<Byte>, s2: Store, u2: User, now2: int, b: seq<Byte>)
    requires |a| == 32 && BinToHex(a) !in s1
    requires |b| == 32 && BinToHex(b) !in s2
    requires a != b
    ensures CreateRefreshToken(s1, u1, now1, a).token.token != CreateRefreshToken(s2, u2, now2, b).token.token
  {
    if CreateRefreshToken(s1, u1, now1, a).token.token == CreateRefreshToken(s2, u2, now2, b).token.token {
      BinToHexInjective(a, b);
    }
  }

  /** Revoking twice is revoking once. */
  lemma RevokeIdempotent(s: Store, t: string)
    ensures RevokeRefreshToken(RevokeRefreshToken(s, t), t) == RevokeRefreshToken(s, t)
  {
  }

  /** A revoked token never validates again, at any time. */
  lemma RevokedNeverValidates(s: Store, t: string, now: int)
    ensures ValidateRefreshToken(RevokeRefreshToken(s, t), t, now)
         == Failure("Invalid or expired refresh token")
  {
  }

  /** After revoking all of a user's tokens none of theirs validates, while
      every other user's tokens validate exactly as before. */
  lemma RevokeAllValidity(s: Store, user: User, t: string, now: int)
    requires t in s
    ensures s[t].user.id == user.id ==>
      ValidateRefreshToken(RevokeAllResult(s, user), t, now).Failure?
    ensures s[t].user.id != user.id ==>
      ValidateRefreshToken(RevokeAllResult(s, user), t, now) == ValidateRefreshToken(s, t, now)
  {
  }

  /** The table `RevokeAllUserRefreshTokens` leaves, as a comprehension. */
  function RevokeAllResult(s: Store, user: User): Store {
    map t | t in s && s[t].user.id != user.id :: s[t]
  }
}

=== FILE: token_blacklist.dfy ===
/** The access-token blacklist: a TTL cache from `"jwt_" + sha256(token)` to
    the instant the entry lapses. The digest is a parameter `digest` standing
    for `hash('sha256', ...)`; the cache's own expiry check is modelled as
    "an entry is a hit while `now` is before its expiry". */
module TokenBlacklist {

  /** Cache key -> absolute expiry in epoch seconds. */
  type Cache = map<string, int>

  /** The prefix of every blacklist key. */
  const KeyPrefix: string := "jwt_"

  /** `getTokenId`: the key under which a token is stored and looked up. */
  function TokenId(digest: string -> string, token: string): string {
    KeyPrefix + digest(token)
  }

  /** The cache holds a non-expired item under `key`. */
  predicate Live(c: Cache, key: string, now: int) {
    key in c && now < c[key]
  }

  /** `blacklist`: with `ttl = expiresAt - now`, nothing happens when
      `ttl <= 0`; otherwise the cache's get-or-compute stores the key with
      that TTL, but only on a miss: a live entry is never overwritten. */
  function Blacklist(c: Cache, digest: string -> string, token: string, expiresAt: int, now: int): (c': Cache)
    ensures expiresAt - now <= 0 ==> c' == c
    ensures Live(c, TokenId(digest, token), now) ==> c' == c
    ensures expiresAt > now && !Live(c, TokenId(digest, token), now) ==>
      TokenId(digest, token) in c' && c'[TokenId(digest, token)] == expiresAt
    ensures forall k :: k != TokenId(digest, token) ==> (k in c' <==> k in c)
    ensures forall k :: k != TokenId(digest, token) && k in c ==> c'[k] == c[k]
  {
    var key := TokenId(digest, token);
    var ttl := expiresAt - now;
    if ttl <= 0 then c
    else if Live(c, key, now) then c
    else c[key := now + ttl]
  }

  /** `isBlacklisted`: the token's key is a cache hit. */
  function IsBlacklisted(c: Cache, digest: string -> string, token: string, now: int): (r: bool)
    ensures r <==> "jwt_" + digest(token) in c && now < c["jwt_" + digest(token)]
  {
    Live(c, TokenId(digest, token), now)
  }

  /** After blacklisting a token that expires in the future, it is reported
      blacklisted from `now` on, and, unless an earlier live entry was kept,
      exactly until its expiry: afterwards the entry has lapsed. */
  lemma BlacklistedUntilExpiry(c: Cache, digest: string -> string, token: string, expiresAt: int, now: int, later: int)
    requires now < expiresAt
    ensures IsBlacklisted(Blacklist(c, digest, token, expiresAt, now), digest, token, now)
    ensures !IsBlacklisted(c, digest, token, now) ==>
      (IsBlacklisted(Blacklist(c, digest, token, expiresAt, now), digest, token, later) <==> later < expiresAt)
  {
  }

  /** An already-expired token is never stored. */
  lemma ExpiredTokenNotStored(c: Cache, digest: string -> string, token: string, expiresAt: int, now: int, later: int)
    requires expiresAt <= now
    ensures Blacklist(c, digest, token, expiresAt, now) == c
    ensures IsBlacklisted(Blacklist(c, digest, token, expiresAt, now), digest, token, later)
         == IsBlacklisted(c, digest, token, later)
  {
  }

  /** Blacklisting again while an entry is live keeps that entry's expiry,
      whatever expiry is passed the second time. */
  lemma ReblacklistKeepsExpiry(c: Cache, digest: string -> string, token: string, e1: int, e2: int, now1: int, now2: int)
    requires now1 < e1
    requires !Live(c, TokenId(digest, token), now1)
    requires now1 <= now2 < e1
    ensures var c1 := Blacklist(c, digest, token, e1, now1);
      Blacklist(c1, digest, token, e2, now2) == c1 && c1[TokenId(digest, token)] == e1
  {
  }

  /** Blacklisting `t` does not change the answer for any token stored under
      a different key. */
  lemma BlacklistIsolation(c: Cache, digest: string -> string, t: string, expiresAt: int, now: int, other: string, later: int)
    requires TokenId(digest, other) != TokenId(digest, t)
    ensures IsBlacklisted(Blacklist(c, digest, t, expiresAt, now), digest, other, later)
         == IsBlacklisted(c, digest, other, later)
  {
  }

  /** The digest never maps two tokens to the same value (what sha256 is
      trusted to do). */
  ghost predicate Injective(digest: string -> string) {
    forall a, b :: digest(a) == digest(b) ==> a == b
  }

  /** With a collision-free digest, distinct tokens have distinct keys, so
      blacklisting one never affects another. */
  lemma DistinctTokensDistinctKeys(digest: string -> string, t: string, other: string)
    requires Injective(digest)
    requires t != other
    ensures TokenId(digest, t) != TokenId(digest, other)
  {
    assert TokenId(digest, t)[|KeyPrefix|..] == digest(t);
    assert TokenId(digest, other)[|KeyPrefix|..] == digest(other);
  }
}

=== FILE: token_lifecycle.dfy ===
/** Properties of the token lifecycle that span several requests: issue,
    rotation, logout, and the blacklist gate in front of authenticated
    endpoints. */
module TokenLifecycle {
  import opened Wrappers
  import opened Php
  import opened Hex
  import opened Users
  import opened RefreshTokenService
  import opened TokenBlacklist
  import opened JwtTokenAuthenticator
  import opened UserController
  import opened Http

  /** `GET /users/me` behind the authenticator: the library's verdict
      `parent` is only reached for a present, non-blacklisted token. */
  function AuthenticatedMe<E>(
    st: ServerState, c: Collaborators, extracted: Option<string>, now: int, parent: Result<User, E>)
    : (r: Response)
    ensures r.status == 200 <==>
      extracted.Some? && !IsBlacklisted(st.blacklist, c.digest, extracted.value, now) && parent.Success?
    ensures r.status == 200 ==> r.body == Arr(map["email" := Str(parent.value.email)])
  {
    AuthenticatedIff(extracted, st.blacklist, c.digest, now, parent);
    match DoAuthenticate(extracted, st.blacklist, c.digest, now, parent)
    case Success(u) => Me(Some(u))
    case Failure(_) => Response(401, Null)
  }

  /** The body of a refresh request presenting `token`. */
  function RefreshRequest(token: string): Value {
    Arr(map["refreshToken" := Str(token)])
  }

  /** Registering the same body twice: the second attempt is a conflict and
      changes nothing. */
  lemma RegisterTwiceConflicts(st: ServerState, c: Collaborators, data: Value)
    requires Register(st, c, data).response.status == 201
    ensures var st1 := Register(st, c, data).state;
      Register(st1, c, data) == Outcome(st1, Response(409, MessageBody("User already exists")))
  {
  }

  /** An unknown email and a wrong password produce the same response and
      neither issues a refresh token. */
  lemma InvalidCredentialsIndistinguishable(
    st: ServerState, c: Collaborators, email1: string, email2: string, password: string,
    now: int, randomBytes: seq<Byte>)
    requires FreshBytes(st, randomBytes)
    requires !Empty(Str(email1)) && !Empty(Str(email2)) && !Empty(Str(password))
    requires email1 !in st.users
    requires email2 in st.users && !c.isPasswordValid(st.users[email2], password)
    ensures var bad1 := Login(st, c, Arr(map["email" := Str(email1), "password" := Str(password)]), now, randomBytes);
      var bad2 := Login(st, c, Arr(map["email" := Str(email2), "password" := Str(password)]), now, randomBytes);
      bad1 == bad2 && bad1 == Outcome(st, Response(401, MessageBody("Invalid credentials")))
  {
  }

  /** A login's refresh token can be exchanged for a new pair any time
      within its 90 days. */
  lemma LoginTokenRefreshes(
    st: ServerState, c: Collaborators, data: Value, now: int, rb1: seq<Byte>, later: int, rb2: seq<Byte>)
    requires FreshBytes(st, rb1)
    requires Login(st, c, data, now, rb1).response.status == 200
    requires now <= later < now + RefreshTokenTtl
    requires FreshBytes(Login(st, c, data, now, rb1).state, rb2)
    ensures var login := Login(st, c, data, now, rb1);
      var issued := login.response.body.entries["refreshToken"].s;
      RefreshToken(login.state, c, RefreshRequest(issued), later, rb2).response.status == 200
  {
    var login := Login(st, c, data, now, rb1);
    var issued := login.response.body.entries["refreshToken"].s;
    assert |issued| == 64;
    assert !Empty(Str(issued));
  }

  /** Rotation replaces the presented token: the new value differs, it
      validates for 90 days, and the presented value never validates again. */
  lemma RotationReplacesToken(
    st: ServerState, c: Collaborators, data: Value, now: int, randomBytes: seq<Byte>, later: int)
    requires FreshBytes(st, randomBytes)
    requires RefreshToken(st, c, data, now, randomBytes).response.status == 200
    ensures var o := RefreshToken(st, c, data, now, randomBytes);
      var presented := Stringify(Coalesce(data, "refreshToken", Null)).value;
      var issued := o.response.body.entries["refreshToken"].s;
      && issued != presented
      && ValidateRefreshToken(o.state.refreshTokens, presented, later).Failure?
      && (ValidateRefreshToken(o.state.refreshTokens, issued, later).Success? <==> later < now + 7776000)
  {
  }

  /** Rotation is single use: presenting the same refresh token again, at
      any later time, is a 401 that changes nothing. */
  lemma RotationIsSingleUse(
    st: ServerState, c: Collaborators, data: Value, now: int, rb1: seq<Byte>, later: int, rb2: seq<Byte>)
    requires FreshBytes(st, rb1)
    requires RefreshToken(st, c, data, now, rb1).response.status == 200
    requires FreshBytes(RefreshToken(st, c, data, now, rb1).state, rb2)
    ensures var st1 := RefreshToken(st, c, data, now, rb1).state;
      RefreshToken(st1, c, data, later, rb2)
        == Outcome(st1, Response(401, MessageBody("Invalid or expired refresh token")))
  {
  }

  /** A successful logout that names a refresh token makes that token
      useless: refreshing with it afterwards is a 401. */
  lemma LogoutRevokesRefreshToken(
    st: ServerState, c: Collaborators, authorization: Option<string>, token: string,
    now: int, later: int, randomBytes: seq<Byte>)
    requires token != "" && token != "0"
    requires Logout(st, c, authorization, RefreshRequest(token), now).response.status == 200
    requires FreshBytes(Logout(st, c, authorization, RefreshRequest(token), now).state, randomBytes)
    ensures var st1 := Logout(st, c, authorization, RefreshRequest(token), now).state;
      RefreshToken(st1, c, RefreshRequest(token), later, randomBytes)
        == Outcome(st1, Response(401, MessageBody("Invalid or expired refresh token")))
  {
  }

  /** Logging out with a well-formed bearer token whose `exp` is in the
      future succeeds and blacklists that token: until `exp`, the
      authenticator rejects it whatever the signature check would say, and
      `/users/me` answers 401. */
  lemma LogoutBlocksAccessToken<E>(
    st: ServerState, c: Collaborators, header: string, payload: string, signature: string,
    exp: int, data: Value, now: int, later: int, parent: Result<User, E>)
    requires '.' !in header && '.' !in payload && '.' !in signature
    requires !Contains(BearerPrefix, Implode('.', [header, payload, signature]))
    requires IsSet(c.decodePayload(payload), "exp") && c.decodePayload(payload).entries["exp"] == Int(exp)
    requires now < exp
    requires !IsBlacklisted(st.blacklist, c.digest, Implode('.', [header, payload, signature]), now)
    requires Empty(Coalesce(data, "refreshToken", Null)) || Stringify(Coalesce(data, "refreshToken", Null)).Some?
    requires now <= later < exp
    ensures var token := Implode('.', [header, payload, signature]);
      var o := Logout(st, c, Some(BearerPrefix + token), data, now);
      && o.response.status == 200
      && DoAuthenticate(Some(token), o.state.blacklist, c.digest, later, parent) == Failure(TokenBlacklisted)
      && AuthenticatedMe(o.state, c, Some(token), later, parent).status == 401
  {
    var token := Implode('.', [header, payload, signature]);
    StripStandardHeader(token);
    assert BearerPrefix + token != "" && BearerPrefix + token != "0";
    ExplodeImplode('.', [header, payload, signature]);
    assert Explode('.', token)[1] == payload;
    assert ExpClaim(c, token) == Some(Int(exp));
    BlacklistedUntilExpiry(st.blacklist, c.digest, token, exp, now, later);
  }
}

=== FILE: user_controller.dfy ===
/** The user controller's endpoints as pure transitions
    `(state, request) -> (state', status, body)`. Everything the controller
    delegates to a library is a field of `Collaborators`; request bodies are
    the result of `json_decode($content, true)` (`Null` when the body does
    not decode). A PHP `TypeError` that escapes the controller is status 500
    with no body of the controller's making. */
module UserController {
  import opened Wrappers
  import opened Php
  import opened Hex
  import opened Users
  import opened RefreshTokenRepository
  import opened RefreshTokenService
  import opened TokenBlacklist
  import opened UserValidator
  import opened Http

  /** The access token's lifetime the responses announce (one hour). */
  const AccessTokenTtl: int := 3600

  /** The library code the controller calls and the model does not look into. */
  datatype Collaborators = Collaborators(
    isEmail: string -> bool,                     // filter_var(..., FILTER_VALIDATE_EMAIL)
    hashPassword: string -> string,              // the password hasher's hashPassword
    isPasswordValid: (User, string) -> bool,     // the password hasher's isPasswordValid
    entityErrors: User -> map<string, string>,   // the entity validator: property path -> message
    mintJwt: (User, int) -> string,              // the JWT manager's create, at time `now`
    digest: string -> string,                    // hash('sha256', ...)
    decodePayload: string -> Value)              // json_decode(base64_decode($segment), true)

  /** Users by email, the next identifier the database hands out, the
      refresh-token table and the access-token blacklist. */
  datatype ServerState = ServerState(
    users: map<string, User>,
    nextUserId: nat,
    refreshTokens: Store,
    blacklist: Cache)

  /** An HTTP response: status and JSON body. */
  datatype Response = Response(status: int, body: Value)

  /** The state after a request and the response sent. */
  datatype Outcome = Outcome(state: ServerState, response: Response)

  /** `['message' => $m]`. */
  function MessageBody(m: string): Value {
    Arr(map["message" := Str(m)])
  }

  /** A `TypeError` escaping the controller. */
  const Uncaught: Response := Response(500, Null)

  /** The 32 random bytes for a new refresh token do not collide with a
      stored token value. */
  predicate FreshBytes(st: ServerState, randomBytes: seq<Byte>) {
    |randomBytes| == 32 && BinToHex(randomBytes) !in st.refreshTokens
  }

  /** `findOneBy(['email' => $v])`: scalars are compared by their string form. */
  function FindUserByEmail(users: map<string, User>, v: Value): (r: Option<User>)
    ensures r.Some? <==> Stringify(v).Some? && Stringify(v).value in users
    ensures r.Some? ==> r.value == users[Stringify(v).value]
  {
    match Stringify(v)
    case Some(e) => if e in users then Some(users[e]) else None
    case None => None
  }

  /** The validator's error array with its `status` entry. */
  function ErrorArray(e: ValidationError): map<string, Value> {
    var base := map["message" := Str(e.message), "status" := Int(e.status)];
    match e.field
    case Some(f) => base["field" := Str(f)]
    case None => base
  }

  /** The public summary of a user returned on registration. */
  function UserSummary(u: User): Value {
    Arr(map["id" := Int(u.id), "email" := Str(u.email), "firstName" := u.firstName, "lastName" := u.lastName])
  }

  /** The token pair body of a successful login or refresh. */
  function TokenPairBody(accessToken: string, refreshToken: string): Value {
    Arr(map[
      "accessToken" := Str(accessToken),
      "refreshToken" := Str(refreshToken),
      "expiresIn" := Int(AccessTokenTtl),
      "refreshExpiresIn" := Int(RefreshTokenTtl)])
  }

  /** The user `register` would create from an accepted body. */
  function NewUser(st: ServerState, c: Collaborators, data: map<string, Value>): User
    requires ValidateRegistrationData(data, c.isEmail).Valid?
  {
    User(
      st.nextUserId,
      data["email"].s,
      data["firstName"],
      data["lastName"],
      c.hashPassword(Stringify(data["password"]).value),
      ["ROLE_USER"])
  }

  /** `register`: an existing email is a conflict before any validation; a
      validation error is returned with its own status and without the
      `status` entry; otherwise a `ROLE_USER` user is stored and summarised,
      password excluded. */
  function Register(st: ServerState, c: Collaborators, data: Value): (o: Outcome)
    ensures FindUserByEmail(st.users, Coalesce(data, "email", Str(""))).Some? ==>
      o == Outcome(st, Response(409, MessageBody("User already exists")))
    ensures o.response.status != 201 ==> o.state == st
    ensures o.response.status == 400 || o.response.status == 409 ==>
      o.response.body.Arr? && "message" in o.response.body.entries &&
      "status" !in o.response.body.entries
    ensures FindUserByEmail(st.users, Coalesce(data, "email", Str(""))).None? && data.Arr? ==>
      match ValidateRegistrationData(data.entries, c.isEmail)
      case Invalid(e) =>
        o.response.status == e.status &&
        o.response.body == Arr(ErrorArray(e) - {"status"})
      case StrlenTypeError => o.response == Uncaught
      case Valid =>
        var u := NewUser(st, c, data.entries);
        var errors := c.entityErrors(u);
        (o.response.status == 201 <==> |errors| == 0) &&
        (|errors| > 0 ==> o.response == Response(400, Arr(map[
          "message" := Str("Validation failed"),
          "errors" := Arr(map k | k in errors :: Str(errors[k]))])))
    ensures o.response.status == 201 ==>
      data.Arr? && ValidateRegistrationData(data.entries, c.isEmail).Valid? &&
      var u := NewUser(st, c, data.entries);
      && u.email !in st.users
      && u.roles == ["ROLE_USER"]
      && o.state == st.(users := st.users[u.email := u], nextUserId := st.nextUserId + 1)
      && o.response.body.Arr?
      && o.response.body.entries.Keys == {"message", "user"}
      && o.response.body.entries["user"] == UserSummary(u)
      && o.response.body.entries["user"].entries.Keys == {"id", "email", "firstName", "lastName"}
  {
    if FindUserByEmail(st.users, Coalesce(data, "email", Str(""))).Some? then
      Outcome(st, Response(409, MessageBody("User already exists")))
    else if !data.Arr? then
      Outcome(st, Uncaught)   // validateRegistrationData(array $data) refuses a non-array
    else match ValidateRegistrationData(data.entries, c.isEmail)
      case Invalid(e) => Outcome(st, Response(e.status, Arr(ErrorArray(e) - {"status"})))
      case StrlenTypeError => Outcome(st, Uncaught)
      case Valid =>
        var u := NewUser(st, c, data.entries);
        var errors := c.entityErrors(u);
        if |errors| > 0 then
          Outcome(st, Response(400, Arr(map[
            "message" := Str("Validation failed"),
            "errors" := Arr(map k | k in errors :: Str(errors[k]))])))
        else
          Outcome(
            st.(users := st.users[u.email := u], nextUserId := st.nextUserId + 1),
            Response(201, Arr(map[
              "message" := Str("User registered successfully"),
              "user" := UserSummary(u)])))
  }

  /** `login`: missing fields are 400; an unknown email and a wrong password
      give the same 401; success issues one refresh token for the user and
      announces both lifetimes. */
  function Login(st: ServerState, c: Collaborators, data: Value, now: int, randomBytes: seq<Byte>): (o: Outcome)
    requires FreshBytes(st, randomBytes)
    ensures var email := Coalesce(data, "email", Null);
      var password := Coalesce(data, "password", Null);
      && (Empty(email) || Empty(password) ==>
            o == Outcome(st, Response(400, MessageBody("Email and password are required"))))
      && (!Empty(email) && !Empty(password) && FindUserByEmail(st.users, email).None? ==>
            o == Outcome(st, Response(401, MessageBody("Invalid credentials"))))
      && (!Empty(email) && !Empty(password) && FindUserByEmail(st.users, email).Some? &&
          Stringify(password).None? ==>
            o == Outcome(st, Uncaught))
      && (!Empty(email) && !Empty(password) && FindUserByEmail(st.users, email).Some? &&
          Stringify(password).Some? &&
          !c.isPasswordValid(FindUserByEmail(st.users, email).value, Stringify(password).value) ==>
            o == Outcome(st, Response(401, MessageBody("Invalid credentials"))))
      && (o.response.status == 200 <==>
            !Empty(email) && !Empty(password) && FindUserByEmail(st.users, email).Some? &&
            Stringify(password).Some? &&
            c.isPasswordValid(FindUserByEmail(st.users, email).value, Stringify(password).value))
      && (o.response.status == 200 ==>
            var u := FindUserByEmail(st.users, email).value;
            var created := CreateRefreshToken(st.refreshTokens, u, now, randomBytes);
            && o.state == st.(refreshTokens := created.store)
            && created.token.user == u
            && o.response.body == TokenPairBody(c.mintJwt(u, now), created.token.token))
    ensures o.response.status != 200 ==> o.state == st
    ensures o.response.status == 401 ==> o.response.body == MessageBody("Invalid credentials")
    ensures o.response.status == 200 ==>
      o.response.body.entries["expiresIn"] == Int(3600) &&
      o.response.body.entries["refreshExpiresIn"] == Int(7776000)
  {
    var email := Coalesce(data, "email", Null);
    var password := Coalesce(data, "password", Null);
    if Empty(email) || Empty(password) then
      Outcome(st, Response(400, MessageBody("Email and password are required")))
    else match FindUserByEmail(st.users, email)
      case None => Outcome(st, Response(401, MessageBody("Invalid credentials")))
      case Some(u) =>
        match Stringify(password)
        case None => Outcome(st, Uncaught)
        case Some(plain) =>
          if !c.isPasswordValid(u, plain) then
            Outcome(st, Response(401, MessageBody("Invalid credentials")))
          else
            var accessToken := c.mintJwt(u, now);
            var created := CreateRefreshToken(st.refreshTokens, u, now, randomBytes);
            Outcome(st.(refreshTokens := created.store), Response(200, TokenPairBody(accessToken, created.token.token)))
  }

  /** `me`, behind the authenticator: the authenticated user's email, or 401. */
  function Me(user: Option<User>): (r: Response)
    ensures r.status == 200 <==> user.Some?
    ensures user.Some? ==> r.body == Arr(map["email" := Str(user.value.email)])
  {
    match user
    case None => Response(401, MessageBody("User not authenticated"))
    case Some(u) => Response(200, Arr(map["email" := Str(u.email)]))
  }

  /** The `exp` claim `logout` reads, when the token has three parts and the
      decoded payload sets it. */
  function ExpClaim(c: Collaborators, token: string): Option<Value> {
    var parts := Explode('.', token);
    if |parts| != 3 then None
    else
      var payload := c.decodePayload(parts[1]);
      if IsSet(payload, "exp") then Some(payload.entries["exp"]) else None
  }

  /** `logout`: a missing (or falsy) header, a token that is not three
      dot-separated parts, and a payload without `exp` are 400 and change
      nothing; otherwise the token is blacklisted until its `exp`, and the
      body's refresh token, if non-empty, is revoked. */
  function Logout(st: ServerState, c: Collaborators, authorization: Option<string>, data: Value, now: int): (o: Outcome)
    ensures authorization.None? || Empty(Str(authorization.value)) ==>
      o == Outcome(st, Response(400, MessageBody("No token provided")))
    ensures (authorization.Some? && !Empty(Str(authorization.value)) &&
             Occurrences('.', StripBearer(authorization.value)) != 2) ==>
      o == Outcome(st, Response(400, MessageBody("Invalid token format")))
    ensures (authorization.Some? && !Empty(Str(authorization.value)) &&
             Occurrences('.', StripBearer(authorization.value)) == 2 &&
             ExpClaim(c, StripBearer(authorization.value)).None?) ==>
      o == Outcome(st, Response(400, MessageBody("Token has no expiration time")))
    ensures (authorization.Some? && !Empty(Str(authorization.value)) &&
             ExpClaim(c, StripBearer(authorization.value)).Some? &&
             IntParam(ExpClaim(c, StripBearer(authorization.value)).value).None?) ==>
      o == Outcome(st, Uncaught)
    ensures (authorization.Some? && !Empty(Str(authorization.value)) &&
             ExpClaim(c, StripBearer(authorization.value)).Some? &&
             IntParam(ExpClaim(c, StripBearer(authorization.value)).value).Some? &&
             (Empty(Coalesce(data, "refreshToken", Null)) ||
              Stringify(Coalesce(data, "refreshToken", Null)).Some?)) ==>
      o.response == Response(200, MessageBody("Logged out successfully"))
    ensures o.response.status in {200, 400, 500}
    ensures o.response.status == 500 ==> o.response == Uncaught
    ensures o.response.status == 400 ==> o.state == st
    ensures o.state.users == st.users
    ensures o.response.status == 200 ==>
      authorization.Some? &&
      var token := StripBearer(authorization.value);
      var refresh := Coalesce(data, "refreshToken", Null);
      && ExpClaim(c, token).Some?
      && IntParam(ExpClaim(c, token).value).Some?
      && o.state.blacklist == Blacklist(st.blacklist, c.digest, token, IntParam(ExpClaim(c, token).value).value, now)
      && (Empty(refresh) ==> o.state.refreshTokens == st.refreshTokens)
      && (!Empty(refresh) ==>
            Stringify(refresh).Some? &&
            o.state.refreshTokens == RevokeRefreshToken(st.refreshTokens, Stringify(refresh).value))
      && o.response.body == MessageBody("Logged out successfully")
  {
    if authorization.None? || Empty(Str(authorization.value)) then
      Outcome(st, Response(400, MessageBody("No token provided")))
    else
      var token := StripBearer(authorization.value);
      ExplodeCount('.', token);
      if |Explode('.', token)| != 3 then
        Outcome(st, Response(400, MessageBody("Invalid token format")))
      else match ExpClaim(c, token)
        case None => Outcome(st, Response(400, MessageBody("Token has no expiration time")))
        case Some(exp) =>
          match IntParam(exp)
          case None => Outcome(st, Uncaught)   // blacklist(string, int) refuses the claim
          case Some(expiresAt) =>
            var st1 := st.(blacklist := Blacklist(st.blacklist, c.digest, token, expiresAt, now));
            var refresh := Coalesce(data, "refreshToken", Null);
            if Empty(refresh) then
              Outcome(st1, Response(200, MessageBody("Logged out successfully")))
            else match Stringify(refresh)
              case None => Outcome(st1, Uncaught)   // revokeRefreshToken(string) refuses an array
              case Some(t) =>
                Outcome(
                  st1.(refreshTokens := RevokeRefreshToken(st.refreshTokens, t)),
                  Response(200, MessageBody("Logged out successfully")))
  }

  /** `refreshToken`: an empty value is 400; an invalid or expired token is
      401 with the validator's message and no change; otherwise the presented
      token is revoked and a new one is issued for the same owner. */
  function RefreshToken(st: ServerState, c: Collaborators, data: Value, now: int, randomBytes: seq<Byte>): (o: Outcome)
    requires FreshBytes(st, randomBytes)
    ensures var presented := Coalesce(data, "refreshToken", Null);
      && (Empty(presented) ==>
            o == Outcome(st, Response(400, MessageBody("Refresh token is required"))))
      && (!Empty(presented) && Stringify(presented).Some? &&
          ValidateRefreshToken(st.refreshTokens, Stringify(presented).value, now).Failure? ==>
            o == Outcome(st, Response(401, MessageBody("Invalid or expired refresh token"))))
      && (!Empty(presented) && Stringify(presented).Some? &&
          ValidateRefreshToken(st.refreshTokens, Stringify(presented).value, now).Success? ==>
            o.response.status == 200)
      && (o.response.status == 200 ==>
            Stringify(presented).Some? &&
            var used := Stringify(presented).value;
            && ValidateRefreshToken(st.refreshTokens, used, now).Success?
            && var owner := st.refreshTokens[used].user;
               var created := CreateRefreshToken(RevokeRefreshToken(st.refreshTokens, used), owner, now, randomBytes);
               && used !in o.state.refreshTokens
               && created.token.token != used
               && created.token.user == owner
               && o.state == st.(refreshTokens := created.store)
               && o.response.body == TokenPairBody(c.mintJwt(owner, now), created.token.token))
    ensures o.response.status != 200 ==> o.state == st
    ensures o.response.status in {200, 400, 401, 500}
  {
    var presented := Coalesce(data, "refreshToken", Null);
    if Empty(presented) then
      Outcome(st, Response(400, MessageBody("Refresh token is required")))
    else match Stringify(presented)
      case None => Outcome(st, Uncaught)   // a TypeError is not an \Exception: not caught
      case Some(used) =>
        match ValidateRefreshToken(st.refreshTokens, used, now)
        case Failure(message) => Outcome(st, Response(401, MessageBody(message)))
        case Success(rec) =>
          var accessToken := c.mintJwt(rec.user, now);
          var revoked := RevokeRefreshToken(st.refreshTokens, used);
          var created := CreateRefreshToken(revoked, rec.user, now, randomBytes);
          Outcome(st.(refreshTokens := created.store), Response(200, TokenPairBody(accessToken, created.token.token)))
  }
}

=== FILE: user_validator.dfy ===
/** The registration-data validator: an ordered chain of checks on the
    decoded request array whose first failure is the answer.
    `FILTER_VALIDATE_EMAIL` is the parameter `isEmail`, applied to string
    values; no other PHP value can pass it (the string forms of integers and
    of `true` contain no `@`, and arrays are rejected outright). */
module UserValidator {
  import opened Wrappers
  import opened Php

  /** The error array the validator returns: `message`, optional `field`,
      and the HTTP `status`. */
  datatype ValidationError = ValidationError(message: string, field: Option<string>, status: int)

  /** `null` (all checks pass), an error array, or the `TypeError` that
      `strlen` throws on a non-empty array. */
  datatype Validation = Valid | Invalid(error: ValidationError) | StrlenTypeError

  const BadRequest: int := 400
  const MinPasswordLength: nat := 6

  const MissingFieldsMessage: string := "Missing required fields"
  const EmptyEmailMessage: string := "Email cannot be empty"
  const BadEmailMessage: string := "Invalid email format"
  const EmptyPasswordMessage: string := "Password cannot be empty"
  const ShortPasswordMessage: string := "Password must be at least 6 characters long"

  /** All four registration fields are present and not null. */
  predicate RequiredFieldsSet(data: map<string, Value>) {
    var d := Arr(data);
    IsSet(d, "email") && IsSet(d, "password") && IsSet(d, "firstName") && IsSet(d, "lastName")
  }

  /** The email would be accepted: non-empty and a valid address. */
  predicate EmailAcceptable(email: Value, isEmail: string -> bool) {
    !Empty(email) && email.Str? && isEmail(email.s)
  }

  /** `strlen($v)`; `None` is the `TypeError` it throws for an array. */
  function StrLen(v: Value): Option<nat> {
    match Stringify(v)
    case Some(s) => Some(|s|)
    case None => None
  }

  /** The password would be accepted: non-empty and at least six long. */
  predicate PasswordAcceptable(password: Value) {
    !Empty(password) && StrLen(password).Some? && StrLen(password).value >= MinPasswordLength
  }

  /** `validateRegistrationData`: presence of all fields, then the email
      (empty, then format), then the password (empty, then length). */
  function ValidateRegistrationData(data: map<string, Value>, isEmail: string -> bool): (r: Validation)
    ensures r.Invalid? ==> r.error.status == 400
    ensures (r.Invalid? && r.error.message == "Missing required fields") <==> !RequiredFieldsSet(data)
    ensures r.Invalid? ==> (r.error.field.None? <==> r.error.message == "Missing required fields")
    ensures r.Invalid? && r.error.field == Some("email") ==>
      RequiredFieldsSet(data) && !EmailAcceptable(data["email"], isEmail)
    ensures r.Invalid? && r.error.field == Some("password") ==>
      RequiredFieldsSet(data) && EmailAcceptable(data["email"], isEmail) && !PasswordAcceptable(data["password"])
    ensures r.Invalid? ==> r.error.field in {None, Some("email"), Some("password")}
    ensures r == Invalid(ValidationError("Email cannot be empty", Some("email"), 400)) <==>
      RequiredFieldsSet(data) && Empty(data["email"])
    ensures r == Invalid(ValidationError("Invalid email format", Some("email"), 400)) <==>
      RequiredFieldsSet(data) && !Empty(data["email"]) && !(data["email"].Str? && isEmail(data["email"].s))
    ensures r == Invalid(ValidationError("Password cannot be empty", Some("password"), 400)) <==>
      RequiredFieldsSet(data) && EmailAcceptable(data["email"], isEmail) && Empty(data["password"])
    ensures r == Invalid(ValidationError("Password must be at least 6 characters long", Some("password"), 400)) <==>
      RequiredFieldsSet(data) && EmailAcceptable(data["email"], isEmail) && !Empty(data["password"])
      && StrLen(data["password"]).Some? && StrLen(data["password"]).value < 6
    ensures r.StrlenTypeError? <==>
      RequiredFieldsSet(data) && EmailAcceptable(data["email"], isEmail) &&
      !Empty(data["password"]) && StrLen(data["password"]).None?
    ensures r.Valid? <==>
      RequiredFieldsSet(data) && EmailAcceptable(data["email"], isEmail) && PasswordAcceptable(data["password"])
  {
    if !RequiredFieldsSet(data) then
      Invalid(ValidationError(MissingFieldsMessage, None, BadRequest))
    else if Empty(data["email"]) then
      Invalid(ValidationError(EmptyEmailMessage, Some("email"), BadRequest))
    else if !(data["email"].Str? && isEmail(data["email"].s)) then
      Invalid(ValidationError(BadEmailMessage, Some("email"), BadRequest))
    else if Empty(data["password"]) then
      Invalid(ValidationError(EmptyPasswordMessage, Some("password"), BadRequest))
    else match StrLen(data["password"])
      case None => StrlenTypeError
      case Some(n) =>
        if n < MinPasswordLength then
          Invalid(ValidationError(ShortPasswordMessage, Some("password"), BadRequest))
        else Valid
  }

  /** With everything else acceptable, a non-empty string password of fewer
      than six characters is rejected as too short, and one of six or more
      passes. */
  lemma PasswordLengthBoundary(data: map<string, Value>, isEmail: string -> bool, p: string)
    requires RequiredFieldsSet(data) && EmailAcceptable(data["email"], isEmail)
    requires data["password"] == Str(p) && p != "" && p != "0"
    ensures |p| < 6 ==>
      ValidateRegistrationData(data, isEmail)
        == Invalid(ValidationError("Password must be at least 6 characters long", Some("password"), 400))
    ensures |p| >= 6 ==> ValidateRegistrationData(data, isEmail) == Valid
  {
  }

  /** A missing field is reported even when the email and password are also
      bad: the first failing check wins. */
  lemma MissingFieldsWins(data: map<string, Value>, isEmail: string -> bool)
    requires !RequiredFieldsSet(data)
    ensures ValidateRegistrationData(data, isEmail)
      == Invalid(ValidationError("Missing required fields", None, 400))
  {
  }

  /** The names only need to be set: replacing one by any non-null value,
      even an empty string, never changes the verdict. */
  lemma NamesOnlyNeedToBeSet(data: map<string, Value>, isEmail: string -> bool, key: string, v: Value)
    requires key == "firstName" || key == "lastName"
    requires key in data && !data[key].Null? && !v.Null?
    ensures ValidateRegistrationData(data[key := v], isEmail) == ValidateRegistrationData(data, isEmail)
  {
    var d2 := data[key := v];
    assert RequiredFieldsSet(d2) == RequiredFieldsSet(data);
    if RequiredFieldsSet(data) {
      assert d2["email"] == data["email"] && d2["password"] == data["password"];
    }
  }
}

=== FILE: users.dfy ===
/** The `User` entity as the token lifecycle sees it. */
module Users {
  import opened Php

  /** A registered user. `id` is the identifier the database assigns,
      `password` the hash produced by the password hasher; the names are
      kept as they arrived in the registration body. */
  datatype User = User(
    id: nat,
    email: string,
    firstName: Value,
    lastName: Value,
    password: string,
    roles: seq<string>)
}

=== FILE: wrappers.dfy ===
/** Failure-compatible wrappers shared by every module of the model. */
module Wrappers {

  /** A value that may be absent: PHP's `null`, JavaScript's `null`, or a
      query that found nothing. */
  datatype Option<+T> = None | Some(value: T) {

    /** The wrapped value, or `default` when absent (PHP's `??`). */
    function GetOr(default: T): T {
      match this
      case Some(v) => v
      case None => default
    }
  }

  /** The outcome of an operation that either returns a value or throws. */
  datatype Result<+T, +E> = Success(value: T) | Failure(error: E)
}
